=== FILE: README.md ===
# Debate game: shared state and the drawing page, in Dafny

This project models the core of a two-debater, one-judge image game. Each game
lives in a remote realtime store under a seven-character code. The store holds:

- a `players` object with a counter per role;
- an `image` text;
- three drawing buckets, `pixels`, `sketches` and `rectangles`. Each bucket holds a
  `red` and a `blue` object, and those map small integer indices to encoded texts.

A client keeps a `Game` session object. The object caches the latest snapshot of the
game node, records the role this client claimed, and calls its registered observers
whenever a snapshot arrives. Drawing operations allocate the next free index in the
CACHED bucket of the caller's colour, and then write the encoded payload at that
index. The drawing page turns mouse events into those calls. The pixel tool adds a
pixel. The rectangle tool tracks a dragged box: the box starts on press, follows the
pointer on move, and is normalised and added on release.

Modelling choices:

- **Store.** The remote store is a map from paths to leaves (`Store.Tree`). A node
  exists exactly when some leaf lies at or below it, which is how the store drops
  empty objects. A write (`Store.Write`) is returned as a value instead of being
  performed. `Store.Apply` gives its effect: it replaces the subtree, and a `null`
  write deletes it.
- **Session object.** The `Game` is an immutable value. Every method is a function
  that returns the new object, the writes it issues, and the observers it fires.
- **Errors.** Exceptions are a `Result`. `CannotDraw` and `InvalidPlayerType` are
  the thrown strings. `TypeError` is a read through `undefined` (`players` missing
  in `gameFull`) or a call of `s.match` on a bucket child that is not a text.
  `ReferenceError` is the evaluation of the undeclared `player` in `sketches()` and
  `rectangles()`.
- **Randomness and coordinates.** The seven `Math.random()` draws of `genId` are a
  parameter. Mouse coordinates are exact reals, and `Math.round` is floor of v + 0.5.

`parsePixel` reads the characters at positions 1 and 2 instead of the numbers its
pattern matches, so a stored pixel does not decode back to its coordinates; see
Findings. `Codec.DecodePoint` is the decoder the pattern evidently intends: the two
numbers of its leftmost match.

## Model

| member | source | states |
|---|---|---|
| Store.ChildIndices | src/state.js:28-34 | an index is a child of a node exactly when something is stored at or below `node[i]`, which is the `obj[i] !== undefined` test |
| Store.Apply | src/state.js:116 | a `set` puts its value at the path, a `set(null)` leaves nothing at or below it, every other surviving leaf comes from the old tree unchanged, leaves unrelated to the path are kept, and well-formedness is preserved |
| Store.DeleteAbsentIsNoOp | src/state.js:122 | setting `null` where nothing is stored changes nothing |
| Store.LastWriteWins | src/state.js:116 | of two sets at one path, the second value is what remains |
| Store.ApplyIdempotent | src/state.js:116 | repeating the same set changes nothing further |
| Store.UnrelatedWritesCommute | src/state.js:116 | sets at unrelated paths can arrive in either order with the same result |
| Store.WriteAddsChild | src/state.js:116 | setting `node[i]` adds exactly `i` to the node's defined indices |
| Store.UnrelatedNodeKept | src/state.js:116 | whether a node unrelated to the written path exists, or is truthy, does not change |
| Indices.NextIndex | src/state.js:28-34 | `nextIndex` returns an index that is free, and every smaller index is taken |
| Indices.NextIndexIsLeastFree | src/state.js:28-34 | `k` is the result exactly when `k` is free and all smaller indices are taken |
| Indices.NextIndexExamples | src/state.js:28-34 | an empty object gives 0, and `{0, 1, 3}` gives 2 (holes are reused) |
| Indices.NextIndexGrows | src/state.js:28-34 | once the returned index is taken, the next result is larger |
| Indices.SortedKeys | src/state.js:139 | the object's integer keys in the ascending order `Object.values` visits them: increasing, with the same members and count as the key set |
| Indices.DownClosedPosition | src/state.js:139 | when indices 0..k are all present, the value at index k is the k-th one visited |
| Codec.NatToString | src/state.js:23 | a natural number is written as a non-empty run of decimal digits with no leading zero |
| Codec.NatRoundTrip | src/state.js:23 | the decimal digits a number is written as parse back to the number |
| Codec.IntToString | src/state.js:23 | a non-negative number is written as digits that parse back to it; a negative one as "-" followed by the digits of its magnitude |
| Codec.FormatPoint | src/state.js:23 | the text of a point holds no "\|", and splitting it on its comma gives the texts of x and y |
| Codec.Join | src/state.js:25 | the joined text begins with the first part |
| Codec.JoinSeparatorCount | src/state.js:25 | when no part holds the separator, the joined text holds one separator fewer than there are parts |
| Codec.Split | src/state.js:17 | `split` always yields at least one part, and no part contains the separator |
| Codec.JoinSplit | src/state.js:17-25 | splitting a text and joining the parts with the same separator gives the text back |
| Codec.SplitJoin | src/state.js:17-25 | joining parts that do not contain the separator, then splitting, gives the parts back |
| Codec.SerializeMultiplePixels | src/state.js:20-26 | the text is empty exactly when the stroke has no point |
| Codec.SerializeSplitsPerPoint | src/state.js:16-26 | a non-empty stroke's text splits on "\|" into one "x,y" part per point |
| Codec.SerializeEmpty | src/state.js:20-26 | an empty stroke serialises to "", which splits into one empty part |
| Codec.ParsePixel | src/state.js:8-14 | the match is unused: x is the character at position 1 and y the one at position 2, each undefined exactly when the text is too short to have it |
| Codec.ParsePixelIgnoresRest | src/state.js:8-14 | only the first three characters of the text affect the result |
| Codec.ParseMultiplePixels | src/state.js:16-18 | one entry per "\|"-separated part, in order, each the as-written parse of that part |
| Codec.ParseMultipleAfterSerialize | src/state.js:16-26 | a serialised stroke parses to one entry per point (one entry for the empty stroke), each entry the as-written parse of that point's text |
| Codec.PixelRoundTripFails | src/state.js:8-14 | as written, the pixel (10, 5) is stored as "10,5" and reads back as the characters '0' and ',' |
| Codec.ParsePixelSingleDigitX | src/state.js:8-14 | as written, every single-digit x reads back as the comma |
| Codec.MatchAtSound | src/state.js:9 | a match found at a position is a match of `(\d+),(\d+)` there, its groups the whole digit runs before and after the comma |
| Codec.MatchAtComplete | src/state.js:9 | wherever the pattern matches, with any group lengths, a match at that position is found |
| Codec.FirstMatchLeftmost | src/state.js:9 | the search finds a match exactly when the pattern matches at some position, and returns the match at the first such position |
| Codec.DecodePoint | src/state.js:9 | the two numbers the pattern captures are never negative |
| Codec.DecodePointComplete | src/state.js:9 | the decoder finds a point whenever the pattern matches anywhere in the text |
| Codec.NoMatchBefore | src/state.js:9 | where the search finds nothing at a position, the pattern does not match there with any group lengths |
| Codec.DecodePointLeftmost | src/state.js:9 | a decoded point is the match at the leftmost position where the pattern matches, and no earlier position matches |
| Codec.PointRoundTrip | src/state.js:9 | the intended decoder gives back every point with non-negative coordinates |
| Codec.NegativeXReadsMagnitude | src/state.js:9 | the pattern has no sign, so a negative x is matched after its minus sign and decodes as its magnitude |
| Codec.NegativeYUnmatched | src/state.js:9 | a negative y puts a minus sign right after the only comma, so there is no match and reading the groups would throw |
| Codec.DecodeAllPerPart | src/state.js:16-18 | a list of parts decodes exactly when each part does, and then keeps their points in order |
| Codec.DecodePoints | src/state.js:16-18 | a decoded stroke has one point per "\|"-separated part |
| Codec.DecodePointsPerPart | src/state.js:16-18 | a stroke decodes exactly when every part does, and then its i-th point is the decoding of its i-th part |
| Codec.PointsRoundTrip | src/state.js:16-26 | the intended decoder gives back every non-empty stroke of non-negative points |
| Codec.DecodeRectangle | src/state.js:168-171 | a rectangle decodes exactly when its stroke does and has at least two parts; the origin is the first part's point, the extent the second's, all four non-negative |
| Codec.RectangleRoundTrip | src/state.js:170-177 | a rectangle stored as the two points (x, y) and (w, h) reads back field for field |
| State.ParseRole | src/state.js:194-196 | only "red", "blue" and "judge" are accepted, each naming its role |
| State.RoleNameRoundTrip | src/state.js:194 | every role's name is accepted as that role |
| State.FreshGameTree | src/state.js:61-67 | a new game has all three counters 0, an empty image, and no drawing bucket at all (empty objects are not stored) |
| State.GenId | src/state.js:46-52 | the code has 7 characters, each from the 32-character alphabet, never '0', '1', 'l' or 'o' |
| State.AlphabetAvoidsLookalikes | src/state.js:48 | the alphabet has none of '0', '1', 'l' and 'o' |
| State.NewGame | src/state.js:84-88 | a new session object is loading, has no role and no observers |
| State.SnapshotValue | src/state.js:91 | an empty game node reads as `null`; any other snapshot is kept whole |
| State.OnValue | src/state.js:90-93 | a snapshot replaces the cache, an empty game node reads as loading, role and observers are kept, and every observer fires once in registration order |
| State.OnUpdate | src/state.js:96-99 | the observer is appended and fired once at once; nothing else changes |
| State.CheckCanDraw | src/state.js:101-105 | drawing is allowed only with a loaded snapshot that has `players` and a red or blue role; otherwise it fails with the guard's error, always for a judge or a client with no role |
| State.DefinedIndices | src/state.js:30 | `obj[i] !== undefined` holds for a text exactly below its length, for a number never, and for an object exactly when something is stored at or below `obj[i]` |
| State.AddDrawing | src/state.js:107-118 | fails exactly when the guard does; otherwise it picks the least index the cached bucket of the caller's colour leaves free (0 for a missing bucket) and writes the payload there |
| State.RemoveDrawing | src/state.js:120-124 | fails exactly when the guard does; otherwise it writes `null` at that index of the caller's own bucket and returns the index |
| State.AddPixel | src/state.js:144-147 | writes "x,y" into the pixel bucket, and for non-negative coordinates the intended decoder gives the point back |
| State.AddSketch | src/state.js:157-160 | writes the whole stroke as one text, which the intended decoder gives back for a non-empty stroke of non-negative points |
| State.RemoveSketch | src/state.js:162-164 | deletes the given index of the caller's sketch bucket, guard permitting |
| State.AddRectangle | src/state.js:176-179 | writes the rectangle as two points, which read back as the same rectangle for non-negative fields |
| State.RemoveRectangle | src/state.js:181-183 | deletes the given index of the caller's rectangle bucket, guard permitting |
| State.Sketches | src/state.js:149-154 | `[]` while loading or when the cache or its `sketches` node is falsy; otherwise a reference error, so it never lists a sketch |
| State.Rectangles | src/state.js:166-174 | the same guard and the same reference error, so it never lists a rectangle |
| State.GameFull | src/state.js:130-135 | falsy while loading (modelled as false), true only when all three counters are the number 1, and a thrown read error only when `players` is missing |
| State.GamePlaying | src/state.js:126-128 | true exactly when the game is full and a role has been claimed (falsy otherwise, modelled as false), and it throws exactly when `gameFull` does |
| State.SetCurrentPlayer | src/state.js:193-205 | rejects exactly the strings that are not a role name; otherwise writes 1 into that role's counter and records the role, changing nothing else |
| State.ParseBucket | src/state.js:139 | the parsed values of an object bucket in ascending index order, one per child; it throws exactly when some child is not a text |
| State.Pixels | src/state.js:137-142 | `[]` while loading; for a loaded well-formed snapshot whose bucket is an object, the ordered parse of its children |
| StateProperties.NewGameIsIdle | src/state.js:84-94 | a new session object is loading, cannot draw, and is neither full nor playing |
| StateProperties.NonDebatersNeverWrite | src/state.js:101-105 | a judge, or a client with no role, can neither add nor remove |
| StateProperties.DebatersMayDraw | src/state.js:101-105 | a debater whose snapshot holds a counter may draw, as its own colour |
| StateProperties.StaleAddsCollide | src/state.js:110-117 | two adds made before a new snapshot arrives get the same index, and the second payload overwrites the first |
| StateProperties.FirstDrawingGetsIndexZero | src/state.js:61-67 | the first drawing of each kind in a fresh game gets index 0 |
| StateProperties.AddExtendsBucket | src/state.js:113-116 | an add's write adds exactly its index to the caller's bucket |
| StateProperties.AddSnapshotKeepsGuard | src/state.js:101-116 | the snapshot carrying an add's own write leaves the drawing guard's answer unchanged |
| StateProperties.AddAfterSnapshotAdvances | src/state.js:107-118 | once an add's write has come back as the snapshot, the next add in that bucket gets a larger index |
| StateProperties.BucketPathInjective | src/state.js:116 | distinct kinds or colours address distinct buckets |
| StateProperties.RemoveKeepsOtherBuckets | src/state.js:120-124 | a removal keeps every leaf of every other bucket |
| StateProperties.RemoveAbsentIsNoOp | src/state.js:120-124 | removing an index the bucket does not hold leaves the store as it was |
| StateProperties.RacingClaimsBothSucceed | src/state.js:193-205 | two clients claiming one role both succeed, and the counter ends at 1 in either arrival order |
| StateProperties.ClaimsNeverCountTwo | src/state.js:198-200 | after any sequence of claims, each counter is either untouched or exactly 1 |
| StateProperties.FullIffAllCountersOne | src/state.js:130-135 | with a well-formed snapshot, `gameFull` holds exactly when all three counters are 1 |
| StateProperties.FreshGameNotFull | src/state.js:61-67 | a fresh game is not full and nobody in it is playing |
| StateProperties.ObserversFireInRegistrationOrder | src/state.js:90-99 | registering observers fires each once, in order, and every later snapshot fires them all again in registration order |
| StateProperties.LoadingFollowsLatestSnapshot | src/state.js:189-191 | after a run of snapshots, `isLoading()` holds exactly when the latest one was empty, otherwise the cache is that snapshot; role and observers are untouched |
| StateProperties.AddedRectangleNotListed | src/state.js:166-179 | once a rectangle's write comes back as the snapshot of a store with no sketches, `rectangles()` still returns `[]` |
| StateProperties.StoredSketchBreaksListings | src/state.js:149-174 | once any sketch's write comes back as the snapshot, both `sketches()` and `rectangles()` throw |
| StateProperties.SnapshotReplacesWholesale | src/state.js:90-92 | two objects receiving the same snapshot cache the same state, and no old leaf survives that the snapshot lacks |
| StateProperties.WriteKeepsTextChildren | src/state.js:139-146 | adding a text child to a bucket whose children are all texts keeps every child a text, so listing still does not throw |
| StateProperties.ParseBucketIffTextChildren | src/state.js:9 | listing a bucket throws exactly when some child is not a text |
| StateProperties.ListedAtOwnIndex | src/state.js:139 | in a listable bucket holding every index up to `i`, the value listed at position `i` is the parse of child `i` |
| StateProperties.ListingAfterWrite | src/state.js:137-142 | writing at the least free index of an all-text bucket lists the new text at the position equal to its index |
| StateProperties.PixelsOfSnapshot | src/state.js:137-142 | a loaded snapshot whose pixel bucket is an object is listed in ascending index order |
| StateProperties.AddPixelAllocation | src/state.js:144-147 | a debater whose cached pixel bucket holds only texts can add a pixel, and its write lands at the least free index of that bucket |
| StateProperties.AddedPixelIsListed | src/state.js:137-147 | after a debater's pixel write comes back as the snapshot, `pixels` lists it, as the as-written parse of its text, at the position equal to its index |
| GamePlay.InitialDrag | src/pages/game_play.js:161-168 | the page opens with the rectangle tool and no box in progress |
| GamePlay.InitialDragIdle | src/pages/game_play.js:190-209 | on the freshly opened page, a move or a release before any press changes nothing and makes no call |
| GamePlay.Round | src/pages/game_play.js:27-30 | `Math.round` gives the integer within half a unit below or up to half a unit above |
| GamePlay.RoundInteger | src/pages/game_play.js:27-30 | rounding an integer gives it back |
| GamePlay.NormalizeRect | src/pages/game_play.js:24-32 | the normalised width and height are never negative |
| GamePlay.NormalizeRectIgnoresDragDirection | src/pages/game_play.js:24-32 | the result is the same whichever corner the drag started from |
| GamePlay.NormalizeRectSpansBox | src/pages/game_play.js:24-32 | for integer corners the rectangle starts at the smaller and ends at the larger coordinate on each axis |
| GamePlay.MouseDownAt | src/pages/game_play.js:175-189 | a judge changes nothing; at most one call is made; a removal is issued exactly when a non-judge presses with the eraser on a target of their own colour, and it removes that target |
| GamePlay.MouseDownAtWithoutOwnTarget | src/pages/game_play.js:179-181 | without an own target under the eraser, a press behaves as with no target at all |
| GamePlay.MouseDown | src/pages/game_play.js:175-189 | a judge changes nothing; the rectangle tool starts a zero-size box at the pointer; the pixel tool adds the rounded pixel; the eraser does nothing, and no removal is ever issued because the target is always null |
| GamePlay.MouseMove | src/pages/game_play.js:201-209 | only the moving corner follows the pointer, and only while a box is being dragged |
| GamePlay.MouseUp | src/pages/game_play.js:190-200 | the pixel tool adds the rounded pixel; with the rectangle tool a dragged box is normalised, added once and cleared; in every other case, the eraser with a box in progress included, nothing happens |
| GamePlay.MovesTrackLastPosition | src/pages/game_play.js:201-209 | a run of moves keeps the start corner, leaves the moving corner at the last position, and calls nothing |
| GamePlay.DragAddsOneRectangle | src/pages/game_play.js:175-209 | a whole drag by a non-judge adds exactly one rectangle, the normalisation of the press point and the last move, and leaves no box in progress |
| GamePlay.ReplaySplit | src/pages/game_play.js:175-209 | handling two runs of events in turn is handling them as one run |
| GamePlay.PixelClickAddsTwice | src/pages/game_play.js:183-184 | a click with the pixel tool adds the same pixel twice, once on press and once on release |
| GamePlay.Dispatch | src/pages/game_play.js:180-193 | each call the page makes fails exactly when the session's drawing guard does, with the guard's error |
| GamePlay.RunCalls | src/pages/game_play.js:175-200 | the calls run in order; one throws exactly when there is a call and the guard fails, and then nothing is written; otherwise each call issues its write, in order |
| GamePlay.Run | src/pages/game_play.js:194-197 | a thrown call leaves the page state as it was, so a box being dragged stays set; otherwise the handler's new state takes effect and every call has written |
| GamePlay.RunSameCallTwice | src/pages/game_play.js:183-184 | a succeeding call made twice on one session object issues its write twice |
| GamePlay.PixelClickWritesOneLeaf | src/pages/game_play.js:183-184 | when no snapshot arrives between press and release (one unchanged session object), the two writes of a pixel click hit the same leaf with the same text, so the store ends as after a single add |
| GamePlay.MouseDownAsWritten | src/pages/game_play.js:176 | as written, the rectangle tool starts a box and the pixel tool adds a pixel whatever role the session holds |
| GamePlay.MouseDownCorrected | src/pages/game_play.js:176 | with the check reading the session's role, a judge makes no call and keeps the page state, and anyone else is handled as written |
| GamePlay.JudgeDragAsWritten | src/pages/game_play.js:176 | as written, a judge with the default tool starts a drag; on release `addRectangle` throws, and the box stays in progress |
| GamePlay.JudgeIdleCorrected | src/pages/game_play.js:176 | with the check reading the session's role, a judge starting from a state with no box in progress and a tool other than the pixel tool (such as the page's initial state) makes no call and starts no drag, whatever the pointer does; the release handler has no judge check, so a judge with the pixel tool or a box in progress still adds on release |

## Left out

- The store connection, the `games/<code>` reference and promise resolution are not modelled. Writes are returned as `Store.Write` values, and snapshots arrive as explicit `State.OnValue` calls.
- `gameExists` is not modelled. It is one read of the store, with no logic of its own.
- The `freshNewGame` retry loop and its check for an existing code are not modelled. They are I/O. `State.GenId` models one attempt, with the random draws as a parameter, and `State.FreshGameTree` models the template it writes.
- The listings `sketches()` and `rectangles()` evidently meant are not modelled. As written (`State.Sketches`, `State.Rectangles`) they return `[]` unless the cache and its `sketches` node are truthy, and otherwise throw on the undeclared `player` before reading anything. Only the field mapping of src/state.js:170 is modelled, as `Codec.DecodeRectangle`.
- `players()` is not modelled. It returns the cached `players` node, and while loading it throws a TypeError because it reads through `null`.
- The rendering, loupe, canvas sizing, view, toolbar, image loading and `m.redraw` calls of the drawing page are not modelled. They are drawing and display only.
- The routing page is not modelled, apart from what the drawing page reads. It passes the session object to the page, and the session object has no `role` property.
- Floating-point arithmetic is not modelled. Mouse coordinates and `Math.random()` draws are exact reals.
- The store's conversion of objects with dense integer keys into arrays is not modelled. Buckets are always read as objects keyed by index.
- The store's immediate local echo of a client's own writes is not modelled. A snapshot arrives only through an explicit `State.OnValue`, so `GamePlay.PixelClickWritesOneLeaf` is stated for one unchanged session object, with no snapshot between press and release.
- An observer that throws is not modelled. Observers are identifiers, and firing one only records it.
- Bucket children that are not integers are not modelled. A bucket only ever holds integer keys, because only this code writes to it.
- State.GameFull: while loading the code returns the falsy `this.state` (`null`), not `false`; the model returns `false` and keeps only the truthiness.
- State.GamePlaying: while loading it returns the `null` that `gameFull()` yields; the model returns `false` and keeps only the truthiness.
- Codec.ParsePixel: JavaScript indexes a string by UTF-16 code units, and `Object.values` of a text splits it into code units, while a Dafny string is indexed by Unicode scalar values. The two differ only for characters outside the Basic Multilingual Plane, which the encoder never writes.
- GamePlay.MouseDownCorrected: the judge check reads the role from the session's `currentPlayer`. This stands for the role the page was opened with (src/index.js:8), which the constructor as written drops.
- State.Pixels: the contract states only the loading case and the case where a well-formed snapshot holds the bucket as an object. Text or number buckets are computed as the code does, but no contract states their result.
- GamePlay.MouseDown: the eraser's removal branch is modelled in `GamePlay.MouseDownAt`, but the page always passes a null target, so no property is stated about removal through the page.

## Findings

| source | as written | input that shows it | evidently intended | confidence | as-written member | corrected member |
|---|---|---|---|---|---|---|
| src/state.js:8-14 | `parsePixel` matches the pattern but returns the characters at positions 1 and 2 of the text | the pixel (10, 5), stored as "10,5", reads back as x = '0', y = ',' | return the two numbers of the pattern's leftmost match | high, not executed | Codec.PixelRoundTripFails | Codec.PointRoundTrip |
| src/pages/game_play.js:176 | the judge check reads `game.role`, which the session object never defines, so it never fires | a judge with the default rectangle tool presses and releases: a box is started, `addRectangle` throws, and the box is never cleared | compare the role the page was opened with (`vnode.attrs.role`, the role also passed to the session at src/index.js:8) with "judge" | high, not executed | GamePlay.JudgeDragAsWritten | GamePlay.JudgeIdleCorrected |

=== FILE: codec.dfy ===
/**
  The annotation text codec of state.js: points are written as "x,y" and
  joined with "|". The decoder the game actually uses (`ParsePixel`) reads the
  characters at positions 1 and 2 of its input rather than the numbers, so it
  is not an inverse of the encoder. `DecodePoint` returns the two numbers the
  regular expression in that function captures, as evidently intended; it
  inverts the encoder on points with non-negative coordinates.
*/
module Codec {
  import opened Wrappers

  datatype Point = Point(x: int, y: int)

  /** A rectangle as stored: origin `(x, y)` and extent `(w, h)`. */
  datatype Rect = Rect(x: int, y: int, w: int, h: int)

  predicate IsDigit(c: char) {
    '0' <= c <= '9'
  }

  predicate IsNumeral(s: string) {
    |s| > 0 && forall i :: 0 <= i < |s| ==> IsDigit(s[i])
  }

  function DigitChar(d: nat): (c: char)
    requires d < 10
    ensures IsDigit(c) && c as int - '0' as int == d
  {
    (48 + d) as char
  }

  function DigitValue(c: char): (d: nat)
    requires IsDigit(c)
    ensures d < 10
  {
    c as int - '0' as int
  }

  /** Decimal text of a natural number, without leading zeros. */
  function NatToString(n: nat): (s: string)
    ensures IsNumeral(s)
    ensures |s| > 1 ==> s[0] != '0'
    decreases n
  {
    if n < 10 then [DigitChar(n)] else NatToString(n / 10) + [DigitChar(n % 10)]
  }

  /** JavaScript's `String(n)` for an integer-valued number: the digits of its
      magnitude, after a minus sign when it is negative. */
  function IntToString(n: int): (s: string)
    ensures n >= 0 ==> IsNumeral(s) && ParseNat(s) == n
    ensures n < 0 ==> |s| > 1 && s[0] == '-' && IsNumeral(s[1..]) && ParseNat(s[1..]) == -n
  {
    if n < 0 then
      var m: nat := -n;
      NatRoundTrip(m);
      assert ("-" + NatToString(m))[1..] == NatToString(m);
      "-" + NatToString(m)
    else
      NatRoundTrip(n);
      NatToString(n)
  }

  /** The value of a string of decimal digits. */
  function ParseNat(s: string): nat
    requires forall i :: 0 <= i < |s| ==> IsDigit(s[i])
  {
    if |s| == 0 then 0 else ParseNat(s[..|s| - 1]) * 10 + DigitValue(s[|s| - 1])
  }

  lemma {:induction false} NatRoundTrip(n: nat)
    ensures ParseNat(NatToString(n)) == n
    decreases n
  {
    var s := NatToString(n);
    if n >= 10 {
      NatRoundTrip(n / 10);
      assert s[..|s| - 1] == NatToString(n / 10);
    }
  }

  /** `parts.join(sep)`: the text begins with the first part. */
  function Join(parts: seq<string>, sep: char): (r: string)
    ensures |parts| >= 1 ==> parts[0] <= r
  {
    if |parts| == 0 then ""
    else if |parts| == 1 then parts[0]
    else parts[0] + [sep] + Join(parts[1..], sep)
  }

  /** When no part holds the separator, the joined text holds exactly one
      separator between each pair of neighbouring parts. */
  lemma {:induction false} JoinSeparatorCount(parts: seq<string>, sep: char)
    requires forall i :: 0 <= i < |parts| ==> sep !in parts[i]
    ensures multiset(Join(parts, sep))[sep] == if |parts| == 0 then 0 else |parts| - 1
  {
    if |parts| > 1 {
      JoinSeparatorCount(parts[1..], sep);
      assert sep !in parts[0];
      assert multiset(parts[0] + [sep] + Join(parts[1..], sep))
        == multiset(parts[0]) + multiset{sep} + multiset(Join(parts[1..], sep));
    } else if |parts| == 1 {
      assert sep !in parts[0];
    }
  }

  /** `s.split(sep)`: always at least one part, the empty string giving `[""]`;
      no part holds the separator. */
  function Split(s: string, sep: char): (parts: seq<string>)
    ensures |parts| >= 1
    ensures forall i :: 0 <= i < |parts| ==> sep !in parts[i]
  {
    if |s| == 0 then
      [""]
    else
      var rest := Split(s[1..], sep);
      if s[0] == sep then [""] + rest else [[s[0]] + rest[0]] + rest[1..]
  }

  lemma {:induction false} SplitNoSeparator(a: string, sep: char)
    requires sep !in a
    ensures Split(a, sep) == [a]
  {
    if |a| > 0 {
      SplitNoSeparator(a[1..], sep);
      assert [a[0]] + a[1..] == a;
    }
  }

  lemma {:induction false} SplitAtFirstSeparator(a: string, b: string, sep: char)
    requires sep !in a
    ensures Split(a + [sep] + b, sep) == [a] + Split(b, sep)
  {
    if |a| == 0 {
      assert a + [sep] + b == [sep] + b;
      assert ([sep] + b)[1..] == b;
    } else {
      SplitAtFirstSeparator(a[1..], b, sep);
      assert (a + [sep] + b)[1..] == a[1..] + [sep] + b;
      assert [a[0]] + a[1..] == a;
    }
  }

  /** Splitting undoes joining when no part contains the separator. */
  lemma {:induction false} SplitJoin(parts: seq<string>, sep: char)
    requires |parts| >= 1
    requires forall i :: 0 <= i < |parts| ==> sep !in parts[i]
    ensures Split(Join(parts, sep), sep) == parts
  {
    if |parts| == 1 {
      SplitNoSeparator(parts[0], sep);
    } else {
      SplitJoin(parts[1..], sep);
      SplitAtFirstSeparator(parts[0], Join(parts[1..], sep), sep);
      assert [parts[0]] + parts[1..] == parts;
    }
  }

  /** Joining undoes splitting: the parts and the separators between them are the whole text. */
  lemma {:induction false} JoinSplit(s: string, sep: char)
    ensures Join(Split(s, sep), sep) == s
  {
    if |s| > 0 {
      var rest := Split(s[1..], sep);
      JoinSplit(s[1..], sep);
      if s[0] != sep && |rest| > 1 {
        assert Join(rest, sep) == rest[0] + [sep] + Join(rest[1..], sep);
        assert [s[0]] + rest[0] + [sep] + Join(rest[1..], sep) == [s[0]] + Join(rest, sep);
      }
      assert [s[0]] + s[1..] == s;
    }
  }

  /** `[x, y].join(",")`: the text holds no "|", and splitting it on its only
      comma gives back the texts of the two numbers. */
  function FormatPoint(p: Point): (r: string)
    ensures '|' !in r
    ensures Split(r, ',') == [IntToString(p.x), IntToString(p.y)]
  {
    var sx := IntToString(p.x);
    var sy := IntToString(p.y);
    assert forall i :: 0 <= i < |sx| ==> sx[i] == '-' || IsDigit(sx[i]);
    assert forall i :: 0 <= i < |sy| ==> sy[i] == '-' || IsDigit(sy[i]);
    SplitAtFirstSeparator(sx, sy, ',');
    SplitNoSeparator(sy, ',');
    sx + "," + sy
  }

  function FormatAll(ps: seq<Point>): (parts: seq<string>)
    ensures |parts| == |ps|
    ensures forall i :: 0 <= i < |ps| ==> parts[i] == FormatPoint(ps[i])
  {
    if |ps| == 0 then [] else [FormatPoint(ps[0])] + FormatAll(ps[1..])
  }

  /** `serializeMultiplePixels`: one "x,y" part per point, in order, joined by "|". */
  function SerializeMultiplePixels(ps: seq<Point>): (r: string)
    ensures r == "" <==> |ps| == 0
  {
    var parts := FormatAll(ps);
    Join(parts, '|')
  }

  /** The encoded text splits back into exactly one "x,y" part per point, in input order. */
  lemma SerializeSplitsPerPoint(ps: seq<Point>)
    requires |ps| >= 1
    ensures Split(SerializeMultiplePixels(ps), '|') == FormatAll(ps)
  {
    var parts := FormatAll(ps);
    SplitJoin(parts, '|');
  }

  /** The empty stroke is written as "" and reads back as one (empty) part. */
  lemma SerializeEmpty()
    ensures SerializeMultiplePixels([]) == ""
    ensures Split(SerializeMultiplePixels([]), '|') == [""]
  {
  }

  /** The fields of the object `parsePixel` returns; `None` is `undefined`. */
  datatype PixelFields = PixelFields(x: Option<char>, y: Option<char>)

  /** `s[i]` on a JavaScript string. */
  function CharAt(s: string, i: nat): Option<char> {
    if i < |s| then Some(s[i]) else None
  }

  /** `parsePixel` as written: the regular-expression match is computed and
      discarded, and the fields are the characters at positions 1 and 2. */
  function ParsePixel(s: string): (r: PixelFields)
    ensures r.x.Some? <==> |s| >= 2
    ensures r.y.Some? <==> |s| >= 3
    ensures r.x.Some? ==> r.x.value == s[1]
    ensures r.y.Some? ==> r.y.value == s[2]
  {
    PixelFields(CharAt(s, 1), CharAt(s, 2))
  }

  /** Only the first three characters matter: whatever follows them is ignored. */
  lemma ParsePixelIgnoresRest(s: string, rest: string)
    requires |s| >= 3
    ensures ParsePixel(s + rest) == ParsePixel(s)
  {
  }

  /** `parseMultiplePixels`: split on "|" and parse each part. */
  function ParseMultiplePixels(s: string): (r: seq<PixelFields>)
    ensures |r| == |Split(s, '|')|
    ensures forall i :: 0 <= i < |r| ==> r[i] == ParsePixel(Split(s, '|')[i])
  {
    var parts := Split(s, '|');
    seq(|parts|, i requires 0 <= i < |parts| => ParsePixel(parts[i]))
  }

  /** Decoding a serialized stroke gives one entry per point, in order, each the
      as-written parse of that point's own "x,y" text; an empty stroke gives one entry. */
  lemma ParseMultipleAfterSerialize(ps: seq<Point>)
    ensures |ParseMultiplePixels(SerializeMultiplePixels(ps))| == if |ps| == 0 then 1 else |ps|
    ensures forall i :: 0 <= i < |ps| ==>
      ParseMultiplePixels(SerializeMultiplePixels(ps))[i] == ParsePixel(FormatPoint(ps[i]))
  {
    if |ps| >= 1 {
      SerializeSplitsPerPoint(ps);
    }
  }

  /** The pixel round trip fails: the point (10, 5) is written "10,5" and read back as '0' and ','. */
  lemma PixelRoundTripFails()
    ensures SerializeMultiplePixels([Point(10, 5)]) == "10,5"
    ensures ParsePixel(SerializeMultiplePixels([Point(10, 5)])) == PixelFields(Some('0'), Some(','))
  {
    assert NatToString(10) == NatToString(1) + [DigitChar(0)];
  }

  /** For every point whose x lies in 0..9 the decoded x field is the comma, never a digit. */
  lemma ParsePixelSingleDigitX(p: Point)
    requires 0 <= p.x <= 9
    ensures ParsePixel(FormatPoint(p)).x == Some(',')
  {
  }

  /** The length of the run of digits that starts at position `i`. */
  function DigitRun(s: string, i: nat): (n: nat)
    requires i <= |s|
    ensures i + n <= |s|
    ensures forall k :: i <= k < i + n ==> IsDigit(s[k])
    ensures i + n == |s| || !IsDigit(s[i + n])
    decreases |s| - i
  {
    if i < |s| && IsDigit(s[i]) then 1 + DigitRun(s, i + 1) else 0
  }

  /** The pattern `(\d+),(\d+)` matches at position `i` with groups of lengths `a` and `b`. */
  predicate MatchesAt(s: string, i: nat, a: nat, b: nat) {
    && 0 < a && 0 < b && i + a + 1 + b <= |s|
    && (forall k :: i <= k < i + a ==> IsDigit(s[k]))
    && s[i + a] == ','
    && (forall k :: i + a + 1 <= k < i + a + 1 + b ==> IsDigit(s[k]))
  }

  /** The match of `(\d+),(\d+)` starting at position `i`, its groups read as
      numbers. The first group is the whole digit run there (a shorter one would
      be followed by a digit, not the comma) and the second is greedy. */
  function MatchAt(s: string, i: nat): (r: Option<Point>)
    requires i <= |s|
  {
    var a := DigitRun(s, i);
    if a > 0 && i + a < |s| && s[i + a] == ',' then
      var b := DigitRun(s, i + a + 1);
      if b > 0 then Some(Point(ParseNat(s[i..i + a]), ParseNat(s[i + a + 1..i + a + 1 + b]))) else None
    else
      None
  }

  /** A run of `n` digits ending at the end of the text or before a non-digit is the run at `i`. */
  lemma {:induction false} DigitRunExact(s: string, i: nat, n: nat)
    requires i + n <= |s|
    requires forall k :: i <= k < i + n ==> IsDigit(s[k])
    requires i + n == |s| || !IsDigit(s[i + n])
    ensures DigitRun(s, i) == n
    decreases n
  {
    if n > 0 {
      DigitRunExact(s, i + 1, n - 1);
    }
  }

  /** A match `MatchAt` finds is one of the pattern, with the whole digit run
      before the comma and the whole run after it as the groups. */
  lemma MatchAtSound(s: string, i: nat)
    requires i <= |s|
    ensures MatchAt(s, i).Some? ==> var a := DigitRun(s, i);
      && i + a < |s| && var b := DigitRun(s, i + a + 1);
      && MatchesAt(s, i, a, b) && (i + a + 1 + b == |s| || !IsDigit(s[i + a + 1 + b]))
  {
  }

  /** `MatchAt` finds a match at `i` whenever the pattern matches there with some group lengths. */
  lemma MatchAtComplete(s: string, i: nat, a: nat, b: nat)
    requires i <= |s| && MatchesAt(s, i, a, b)
    ensures MatchAt(s, i).Some?
  {
    DigitRunExact(s, i, a);
    assert IsDigit(s[i + a + 1]);
  }

  /** The leftmost match at or after position `i`, searching as the regular
      expression engine does. */
  function FirstMatch(s: string, i: nat): (r: Option<Point>)
    requires i <= |s|
    decreases |s| - i
  {
    if i == |s| then None
    else if MatchAt(s, i).Some? then MatchAt(s, i)
    else FirstMatch(s, i + 1)
  }

  /** The search finds something exactly when some position at or after `i`
      matches, and what it finds is the match at the first such position. */
  lemma {:induction false} FirstMatchLeftmost(s: string, i: nat)
    requires i <= |s|
    ensures FirstMatch(s, i).Some? <==> exists j :: i <= j < |s| && MatchAt(s, j).Some?
    ensures FirstMatch(s, i).Some? ==>
      exists j :: i <= j < |s| && FirstMatch(s, i) == MatchAt(s, j) && forall k :: i <= k < j ==> MatchAt(s, k).None?
    decreases |s| - i
  {
    if i < |s| && MatchAt(s, i).None? {
      FirstMatchLeftmost(s, i + 1);
      if FirstMatch(s, i).Some? {
        var j :| i + 1 <= j < |s| && FirstMatch(s, i) == MatchAt(s, j) && forall k :: i + 1 <= k < j ==> MatchAt(s, k).None?;
        assert forall k :: i <= k < j ==> MatchAt(s, k).None?;
      }
    }
  }

  /** `s.match(/(\d+)\,(\d+)/)` with its two groups read as numbers: what
      `parsePixel` was evidently meant to return. `None` is a text with no match,
      where reading the match's groups would throw. */
  function DecodePoint(s: string): (r: Option<Point>)
    ensures r.Some? ==> r.value.x >= 0 && r.value.y >= 0
  {
    FirstMatchLeftmost(s, 0);
    FirstMatch(s, 0)
  }

  /** The decoder finds a point whenever the pattern matches somewhere in the text. */
  lemma DecodePointComplete(s: string, i: nat, a: nat, b: nat)
    requires i < |s| && MatchesAt(s, i, a, b)
    ensures DecodePoint(s).Some?
  {
    MatchAtComplete(s, i, a, b);
    FirstMatchLeftmost(s, 0);
  }

  /** A point the decoder finds is the match at the leftmost position where the pattern matches. */
  lemma DecodePointLeftmost(s: string)
    requires DecodePoint(s).Some?
    ensures exists j :: (0 <= j < |s| && DecodePoint(s) == MatchAt(s, j)
      && (exists a: nat, b: nat :: MatchesAt(s, j, a, b))
      && forall k, a: nat, b: nat :: 0 <= k < j ==> !MatchesAt(s, k, a, b))
  {
    FirstMatchLeftmost(s, 0);
    var j :| 0 <= j < |s| && DecodePoint(s) == MatchAt(s, j) && forall k :: 0 <= k < j ==> MatchAt(s, k).None?;
    MatchAtSound(s, j);
    NoMatchBefore(s, j);
  }

  /** Where `MatchAt` finds nothing, the pattern matches with no group lengths. */
  lemma NoMatchBefore(s: string, j: nat)
    requires j <= |s|
    requires forall k :: 0 <= k < j ==> MatchAt(s, k).None?
    ensures forall k, a: nat, b: nat :: 0 <= k < j ==> !MatchesAt(s, k, a, b)
  {
    forall k, a: nat, b: nat | 0 <= k < j ensures !MatchesAt(s, k, a, b) {
      if MatchesAt(s, k, a, b) {
        MatchAtComplete(s, k, a, b);
      }
    }
  }

  /** A numeral found at position `i` of a text is a run of digits there. */
  lemma NumeralRun(s: string, i: nat, t: string)
    requires IsNumeral(t) && i + |t| <= |s| && s[i..i + |t|] == t
    requires i + |t| == |s| || !IsDigit(s[i + |t|])
    ensures DigitRun(s, i) == |t|
  {
    forall k | i <= k < i + |t| ensures IsDigit(s[k]) {
      assert s[k] == s[i..i + |t|][k - i];
    }
    DigitRunExact(s, i, |t|);
  }

  /** A text that continues at position `i` with two numerals around a comma, up
      to its end, matches there, and the groups are those numerals. */
  lemma MatchAtNumerals(s: string, i: nat, sx: string, sy: string)
    requires IsNumeral(sx) && IsNumeral(sy)
    requires i + |sx| + 1 + |sy| == |s|
    requires s[i..i + |sx|] == sx && s[i + |sx|] == ',' && s[i + |sx| + 1..i + |sx| + 1 + |sy|] == sy
    ensures MatchAt(s, i) == Some(Point(ParseNat(sx), ParseNat(sy)))
  {
    NumeralRun(s, i, sx);
    NumeralRun(s, i + |sx| + 1, sy);
    MatchAtUnfold(s, i, sx, sy);
  }

  /** `MatchAt` on two numerals around a comma, once both runs are known. */
  lemma MatchAtUnfold(s: string, i: nat, sx: string, sy: string)
    requires IsNumeral(sx) && IsNumeral(sy) && i + |sx| + 1 + |sy| <= |s|
    requires s[i..i + |sx|] == sx && s[i + |sx| + 1..i + |sx| + 1 + |sy|] == sy
    requires DigitRun(s, i) == |sx| && s[i + |sx|] == ',' && DigitRun(s, i + |sx| + 1) == |sy|
    ensures MatchAt(s, i) == Some(Point(ParseNat(sx), ParseNat(sy)))
  {
  }

  /** Round trip for the corrected decoder: every point with non-negative coordinates comes back. */
  lemma PointRoundTrip(p: Point)
    requires p.x >= 0 && p.y >= 0
    ensures DecodePoint(FormatPoint(p)) == Some(p)
  {
    var x, y := p.x, p.y;
    var sx, sy := NatToString(x), NatToString(y);
    var s := FormatPoint(p);
    assert s == sx + "," + sy;
    assert s[0..|sx|] == sx && s[|sx| + 1..|sx| + 1 + |sy|] == sy;
    MatchAtNumerals(s, 0, sx, sy);
    NatRoundTrip(x);
    NatRoundTrip(y);
  }

  /** The pattern has no sign: a negative x is matched after its minus sign and
      comes back as its magnitude. */
  lemma NegativeXReadsMagnitude(p: Point)
    requires p.x < 0 && p.y >= 0
    ensures DecodePoint(FormatPoint(p)) == Some(Point(-p.x, p.y))
  {
    var x, y := -p.x, p.y;
    NatRoundTrip(x);
    NatRoundTrip(y);
    SignedFormat(p);
    MatchAfterSign(FormatPoint(p), NatToString(x), NatToString(y));
  }

  /** The text of a point with a negative x and a non-negative y. */
  lemma SignedFormat(p: Point)
    requires p.x < 0 && p.y >= 0
    ensures FormatPoint(p) == "-" + NatToString(-p.x) + "," + NatToString(p.y)
  {
  }

  /** Behind a leading minus sign, two numerals around a comma are the first match. */
  lemma MatchAfterSign(s: string, sx: string, sy: string)
    requires IsNumeral(sx) && IsNumeral(sy)
    requires s == "-" + sx + "," + sy
    ensures DecodePoint(s) == Some(Point(ParseNat(sx), ParseNat(sy)))
  {
    assert s[1..1 + |sx|] == sx && s[1 + |sx| + 1..1 + |sx| + 1 + |sy|] == sy;
    MatchAtNumerals(s, 1, sx, sy);
    assert DigitRun(s, 0) == 0;
    assert FirstMatch(s, 0) == FirstMatch(s, 1) == MatchAt(s, 1);
  }

  /** A negative y leaves a minus sign right after the only comma, so the text
      has no match at all. */
  lemma NegativeYUnmatched(p: Point)
    requires p.y < 0
    ensures DecodePoint(FormatPoint(p)) == None
  {
    var sx := IntToString(p.x);
    var sy := IntToString(p.y);
    var s := FormatPoint(p);
    assert forall k :: 0 <= k < |sx| ==> sx[k] == '-' || IsDigit(sx[k]);
    assert forall k :: 0 <= k < |sy| ==> sy[k] == '-' || IsDigit(sy[k]);
    assert s == sx + "," + sy;
    forall i | 0 <= i < |s| ensures MatchAt(s, i).None? {
      MatchAtSound(s, i);
      var a := DigitRun(s, i);
      if i + a < |s| && s[i + a] == ',' {
        assert i + a == |sx|;
        assert s[i + a + 1] == sy[0] == '-';
      }
    }
    FirstMatchLeftmost(s, 0);
  }

  /** Every part of a stroke has a match. */
  predicate AllDecode(parts: seq<string>)
  {
    forall i :: 0 <= i < |parts| ==> DecodePoint(parts[i]).Some?
  }

  function DecodeAll(parts: seq<string>): (r: Option<seq<Point>>)
    ensures r.Some? ==> |r.value| == |parts|
  {
    if |parts| == 0 then
      Some([])
    else
      match (DecodePoint(parts[0]), DecodeAll(parts[1..]))
      case (Some(p), Some(ps)) => Some([p] + ps)
      case _ => None
  }

  /** DecodeAll succeeds exactly when every part decodes, and then keeps the
      parts' points in order. */
  lemma {:induction false} DecodeAllPerPart(parts: seq<string>)
    ensures DecodeAll(parts).Some? <==> AllDecode(parts)
    ensures DecodeAll(parts).Some? ==>
      forall i :: 0 <= i < |parts| ==> DecodePoint(parts[i]) == Some(DecodeAll(parts).value[i])
  {
    if |parts| > 0 {
      DecodeAllPerPart(parts[1..]);
      assert forall i :: 1 <= i < |parts| ==> parts[i] == parts[1..][i - 1];
    }
  }

  /** The corrected `parseMultiplePixels`: every part must decode, or reading a
      part's match throws. */
  function DecodePoints(s: string): (r: Option<seq<Point>>)
    ensures r.Some? ==> |r.value| == |Split(s, '|')|
  {
    DecodeAll(Split(s, '|'))
  }

  /** A stroke decodes exactly when each of its "|"-separated parts does, and
      then its i-th point is the decoding of its i-th part. */
  lemma DecodePointsPerPart(s: string)
    ensures DecodePoints(s).Some? <==> AllDecode(Split(s, '|'))
    ensures DecodePoints(s).Some? ==>
      forall i :: 0 <= i < |Split(s, '|')| ==> DecodePoint(Split(s, '|')[i]) == Some(DecodePoints(s).value[i])
  {
    DecodeAllPerPart(Split(s, '|'));
  }

  lemma {:induction false} DecodeAllFormatted(ps: seq<Point>)
    requires forall i :: 0 <= i < |ps| ==> ps[i].x >= 0 && ps[i].y >= 0
    ensures DecodeAll(FormatAll(ps)) == Some(ps)
  {
    if |ps| > 0 {
      PointRoundTrip(ps[0]);
      DecodeAllFormatted(ps[1..]);
      assert FormatAll(ps)[1..] == FormatAll(ps[1..]);
      assert [ps[0]] + ps[1..] == ps;
    }
  }

  /** Round trip for strokes: any non-empty list of non-negative points comes back unchanged. */
  lemma PointsRoundTrip(ps: seq<Point>)
    requires |ps| >= 1
    requires forall i :: 0 <= i < |ps| ==> ps[i].x >= 0 && ps[i].y >= 0
    ensures DecodePoints(SerializeMultiplePixels(ps)) == Some(ps)
  {
    SerializeSplitsPerPoint(ps);
    DecodeAllFormatted(ps);
  }

  /** `addRectangle`'s payload: the origin point, then the extent written as a point. */
  function RectanglePayload(r: Rect): string {
    SerializeMultiplePixels([Point(r.x, r.y), Point(r.w, r.h)])
  }

  /** The field mapping of `rectangles()` over the corrected decoder:
      the first point is the origin, the second the width and height. */
  function DecodeRectangle(s: string): (r: Option<Rect>)
    ensures r.Some? <==> DecodePoints(s).Some? && |Split(s, '|')| >= 2
    ensures r.Some? ==> r.value.x >= 0 && r.value.y >= 0 && r.value.w >= 0 && r.value.h >= 0
    ensures r.Some? ==>
      && DecodePoint(Split(s, '|')[0]) == Some(Point(r.value.x, r.value.y))
      && DecodePoint(Split(s, '|')[1]) == Some(Point(r.value.w, r.value.h))
  {
    DecodePointsPerPart(s);
    match DecodePoints(s)
    case Some(ps) =>
      if |ps| >= 2 then Some(Rect(ps[0].x, ps[0].y, ps[1].x, ps[1].y)) else None
    case None => None
  }

  /** A stored rectangle with non-negative fields decodes to itself. */
  lemma RectangleRoundTrip(r: Rect)
    requires r.x >= 0 && r.y >= 0 && r.w >= 0 && r.h >= 0
    ensures DecodeRectangle(RectanglePayload(r)) == Some(r)
  {
    PointsRoundTrip([Point(r.x, r.y), Point(r.w, r.h)]);
  }
}

=== FILE: game_play.dfy ===
/**
  The drawing page of game_play.js: rectangle normalisation and the pointer
  handlers as a state machine over the page's `{tool, currentRect}`.

  A handler returns its next drag state together with the session calls it
  makes (`addPixel`, `addRectangle`, `removeRectangle`); `Run` then performs
  those calls on a session object, and a call that throws skips the rest of the
  handler. Mouse positions are exact reals; `Math.round` is `Round`.
*/
module GamePlay {
  import opened Wrappers
  import opened Store
  import opened Codec
  import opened State

  datatype Tool = RectTool | PixelTool | EraseTool

  /** The rectangle being dragged: the start corner and the moving corner. */
  datatype Corners = Corners(x1: real, y1: real, x2: real, y2: real)

  /** The page state the pointer handlers read and write. */
  datatype Drag = Drag(tool: Tool, currentRect: Option<Corners>)

  /** What a hit test would return; the page never computes one. */
  datatype Target = Target(playerName: Role, firebaseId: nat)

  /** A call the page makes on the session object. */
  datatype Call = AddPixelCall(x: int, y: int) | AddRectangleCall(x: int, y: int, w: int, h: int) | RemoveRectangleCall(id: nat)

  /** A handler's next state and the calls it makes, in order. */
  datatype Step = Step(drag: Drag, calls: seq<Call>)

  /** `oninit`: the rectangle tool, nothing being dragged. */
  function InitialDrag(): (d: Drag)
    ensures d.tool == RectTool && d.currentRect.None?
  {
    Drag(RectTool, None)
  }

  /** On the freshly opened page, moving the pointer or releasing it before any
      press changes nothing and makes no call. */
  lemma InitialDragIdle(x: real, y: real)
    ensures MouseMove(InitialDrag(), x, y) == InitialDrag()
    ensures MouseUp(InitialDrag(), x, y) == Step(InitialDrag(), [])
  {
  }

  /** `Math.round`: the nearest integer, halves rounded up. */
  function Round(v: real): (r: int)
    ensures r as real - 0.5 <= v < r as real + 0.5
  {
    (v + 0.5).Floor
  }

  lemma RoundInteger(k: int)
    ensures Round(k as real) == k
  {
  }

  function Min(a: real, b: real): real {
    if a <= b then a else b
  }

  function Abs(a: real): real {
    if a < 0.0 then -a else a
  }

  /** `normalizeRect`: the rounded top-left corner and the rounded extent of the dragged box. */
  function NormalizeRect(c: Corners): (r: Rect)
    ensures r.w >= 0 && r.h >= 0
  {
    Rect(Round(Min(c.x1, c.x2)), Round(Min(c.y1, c.y2)), Round(Abs(c.x1 - c.x2)), Round(Abs(c.y1 - c.y2)))
  }

  /** The result does not depend on which of the four corners the drag started from. */
  lemma NormalizeRectIgnoresDragDirection(c: Corners)
    ensures NormalizeRect(Corners(c.x2, c.y1, c.x1, c.y2)) == NormalizeRect(c)
    ensures NormalizeRect(Corners(c.x1, c.y2, c.x2, c.y1)) == NormalizeRect(c)
    ensures NormalizeRect(Corners(c.x2, c.y2, c.x1, c.y1)) == NormalizeRect(c)
  {
    assert Abs(c.x2 - c.x1) == Abs(c.x1 - c.x2);
    assert Abs(c.y2 - c.y1) == Abs(c.y1 - c.y2);
  }

  /** For integer corners the rectangle spans exactly the dragged box:
      it starts at the smaller and ends at the larger coordinate on each axis. */
  lemma NormalizeRectSpansBox(x1: int, y1: int, x2: int, y2: int)
    ensures var r := NormalizeRect(Corners(x1 as real, y1 as real, x2 as real, y2 as real));
      && r.x == (if x1 <= x2 then x1 else x2) && r.x + r.w == (if x1 <= x2 then x2 else x1)
      && r.y == (if y1 <= y2 then y1 else y2) && r.y + r.h == (if y1 <= y2 then y2 else y1)
  {
    RoundInteger(if x1 <= x2 then x1 else x2);
    RoundInteger(if y1 <= y2 then y1 else y2);
    RoundInteger(if x1 <= x2 then x2 - x1 else x1 - x2);
    RoundInteger(if y1 <= y2 then y2 - y1 else y1 - y2);
  }

  /** `onmousedown` with a given hit-test result. `role` is the value the page
      reads as `game.role`; a judge changes nothing. */
  function MouseDownAt(role: Option<Role>, d: Drag, x: real, y: real, target: Option<Target>): (s: Step)
    ensures role == Some(Judge) ==> s == Step(d, [])
    ensures s.drag.tool == d.tool
    ensures |s.calls| <= 1
    ensures (|s.calls| == 1 && s.calls[0].RemoveRectangleCall?) <==>
      role != Some(Judge) && target.Some? && Some(target.value.playerName) == role && d.tool == EraseTool
    ensures |s.calls| == 1 && s.calls[0].RemoveRectangleCall? ==>
      s == Step(d, [RemoveRectangleCall(target.value.firebaseId)])
  {
    if role == Some(Judge) then
      Step(d, [])
    else if target.Some? && Some(target.value.playerName) == role && d.tool == EraseTool then
      Step(d, [RemoveRectangleCall(target.value.firebaseId)])
    else if d.tool == PixelTool then
      Step(d, [AddPixelCall(Round(x), Round(y))])
    else if d.tool == RectTool then
      Step(d.(currentRect := Some(Corners(x, y, x, y))), [])
    else
      Step(d, [])
  }

  /** `onmousedown` as the page runs it: the hit test is never computed, so the
      target is always `null` and the eraser branch cannot be taken. */
  function MouseDown(role: Option<Role>, d: Drag, x: real, y: real): (s: Step)
    ensures role == Some(Judge) ==> s == Step(d, [])
    ensures role != Some(Judge) && d.tool == RectTool ==>
      s == Step(d.(currentRect := Some(Corners(x, y, x, y))), [])
    ensures role != Some(Judge) && d.tool == PixelTool ==>
      s == Step(d, [AddPixelCall(Round(x), Round(y))])
    ensures d.tool == EraseTool ==> s == Step(d, [])
    ensures forall i :: 0 <= i < |s.calls| ==> !s.calls[i].RemoveRectangleCall?
  {
    MouseDownAt(role, d, x, y, None)
  }

  /** `onmousemove`: only the moving corner follows the pointer, and only while a
      rectangle is being dragged. */
  function MouseMove(d: Drag, x: real, y: real): (r: Drag)
    ensures r.tool == d.tool
    ensures d.currentRect.None? ==> r == d
    ensures d.currentRect.Some? ==>
      r.currentRect == Some(Corners(d.currentRect.value.x1, d.currentRect.value.y1, x, y))
  {
    match d.currentRect
    case None => d
    case Some(c) => d.(currentRect := Some(c.(x2 := x, y2 := y)))
  }

  /** Without a target of the caller's own under an eraser, a press behaves as
      the page's handler, whose hit test is never computed. */
  lemma MouseDownAtWithoutOwnTarget(role: Option<Role>, d: Drag, x: real, y: real, target: Option<Target>)
    requires target.None? || Some(target.value.playerName) != role || d.tool != EraseTool
    ensures MouseDownAt(role, d, x, y, target) == MouseDown(role, d, x, y)
  {
  }

  /** `onmouseup`: the pixel tool adds a pixel at the pointer; the rectangle tool
      adds the normalised rectangle being dragged (the pointer position is not
      used) and clears it. There is no judge check here. */
  function MouseUp(d: Drag, x: real, y: real): (s: Step)
    ensures d.tool == PixelTool ==> s == Step(d, [AddPixelCall(Round(x), Round(y))])
    ensures d.tool == RectTool && d.currentRect.Some? ==>
      var r := NormalizeRect(d.currentRect.value);
      s == Step(d.(currentRect := None), [AddRectangleCall(r.x, r.y, r.w, r.h)])
    ensures d.tool != PixelTool && !(d.tool == RectTool && d.currentRect.Some?) ==> s == Step(d, [])
  {
    if d.tool == PixelTool then
      Step(d, [AddPixelCall(Round(x), Round(y))])
    else if d.tool == RectTool && d.currentRect.Some? then
      var r := NormalizeRect(d.currentRect.value);
      Step(d.(currentRect := None), [AddRectangleCall(r.x, r.y, r.w, r.h)])
    else
      Step(d, [])
  }

  datatype Event = Down(x: real, y: real) | Move(x: real, y: real) | Up(x: real, y: real)

  function Handle(role: Option<Role>, d: Drag, e: Event): Step {
    match e
    case Down(x, y) => MouseDown(role, d, x, y)
    case Move(x, y) => Step(MouseMove(d, x, y), [])
    case Up(x, y) => MouseUp(d, x, y)
  }

  /** A sequence of pointer events: the final drag state and every call made, in order. */
  function Replay(role: Option<Role>, d: Drag, es: seq<Event>): Step
    decreases |es|
  {
    if |es| == 0 then
      Step(d, [])
    else
      var first := Handle(role, d, es[0]);
      var rest := Replay(role, first.drag, es[1..]);
      Step(rest.drag, first.calls + rest.calls)
  }

  predicate AllMoves(es: seq<Event>) {
    forall i :: 0 <= i < |es| ==> es[i].Move?
  }

  /** Where the moving corner ends after a run of moves starting from `(x, y)`. */
  function LastPosition(x: real, y: real, es: seq<Event>): (real, real)
    requires AllMoves(es)
  {
    if |es| == 0 then (x, y) else (es[|es| - 1].x, es[|es| - 1].y)
  }

  /** Moves keep the start corner, carry the moving corner to the last position, and call nothing. */
  lemma {:induction false} MovesTrackLastPosition(role: Option<Role>, d: Drag, c: Corners, es: seq<Event>)
    requires d.currentRect == Some(c)
    requires AllMoves(es)
    ensures var last := LastPosition(c.x2, c.y2, es);
      Replay(role, d, es) == Step(d.(currentRect := Some(Corners(c.x1, c.y1, last.0, last.1))), [])
    decreases |es|
  {
    if |es| > 0 {
      var d' := MouseMove(d, es[0].x, es[0].y);
      var c' := Corners(c.x1, c.y1, es[0].x, es[0].y);
      assert AllMoves(es[1..]);
      MovesTrackLastPosition(role, d', c', es[1..]);
      if |es| > 1 {
        assert es[1..][|es[1..]| - 1] == es[|es| - 1];
      }
    }
  }

  /** A whole rectangle drag by a non-judge: press at `(a, b)`, any moves, release
      anywhere. Exactly one rectangle is added, the normalisation of the press
      point and the last move, and no rectangle is left in progress. */
  lemma DragAddsOneRectangle(role: Option<Role>, d: Drag, a: real, b: real, moves: seq<Event>, ux: real, uy: real)
    requires role != Some(Judge) && d.tool == RectTool
    requires AllMoves(moves)
    ensures var last := LastPosition(a, b, moves);
      var r := NormalizeRect(Corners(a, b, last.0, last.1));
      Replay(role, d, [Down(a, b)] + moves + [Up(ux, uy)])
        == Step(d.(currentRect := None), [AddRectangleCall(r.x, r.y, r.w, r.h)])
  {
    var es := [Down(a, b)] + moves + [Up(ux, uy)];
    var down := MouseDown(role, d, a, b);
    var c := Corners(a, b, a, b);
    MovesTrackLastPosition(role, down.drag, c, moves);
    ReplaySplit(role, d, [Down(a, b)], moves + [Up(ux, uy)]);
    ReplaySplit(role, down.drag, moves, [Up(ux, uy)]);
    assert es == [Down(a, b)] + (moves + [Up(ux, uy)]);
  }

  /** Replaying two runs of events one after the other. */
  lemma {:induction false} ReplaySplit(role: Option<Role>, d: Drag, es1: seq<Event>, es2: seq<Event>)
    ensures var first := Replay(role, d, es1);
      var second := Replay(role, first.drag, es2);
      Replay(role, d, es1 + es2) == Step(second.drag, first.calls + second.calls)
    decreases |es1|
  {
    if |es1| > 0 {
      var h := Handle(role, d, es1[0]);
      ReplaySplit(role, h.drag, es1[1..], es2);
      assert (es1 + es2)[1..] == es1[1..] + es2;
    } else {
      assert es1 + es2 == es2;
    }
  }

  /** A click with the pixel tool adds the same pixel twice: once on press, once on release. */
  lemma PixelClickAddsTwice(role: Option<Role>, d: Drag, x: real, y: real)
    requires role != Some(Judge) && d.tool == PixelTool
    ensures Replay(role, d, [Down(x, y), Up(x, y)])
      == Step(d, [AddPixelCall(Round(x), Round(y)), AddPixelCall(Round(x), Round(y))])
  {
    ReplaySplit(role, d, [Down(x, y)], [Up(x, y)]);
    assert [Down(x, y)] + [Up(x, y)] == [Down(x, y), Up(x, y)];
  }

  /** A handler's effect once its calls have been made on the session object. */
  datatype Outcome = Outcome(drag: Drag, writes: seq<Write>, thrown: Option<Error>)

  function Dispatch(g: Game, c: Call): (r: Result<Drawn, Error>)
    ensures r.Failure? <==> CheckCanDraw(g).Failure?
    ensures r.Failure? ==> r.error == CannotDraw
  {
    match c
    case AddPixelCall(x, y) => AddPixel(g, x, y)
    case AddRectangleCall(x, y, w, h) => AddRectangle(g, x, y, w, h)
    case RemoveRectangleCall(id) => RemoveRectangle(g, id)
  }

  /** The calls in order, against one session object: the writes issued, and the
      exception that stopped them, if any. */
  function RunCalls(g: Game, calls: seq<Call>): (r: (seq<Write>, Option<Error>))
    ensures r.1.Some? <==> |calls| > 0 && CheckCanDraw(g).Failure?
    ensures r.1.Some? ==> r.1 == Some(CannotDraw) && r.0 == []
    ensures r.1.None? ==>
      |r.0| == |calls| && forall i :: 0 <= i < |calls| ==> r.0[i] == Dispatch(g, calls[i]).value.write
    decreases |calls|
  {
    if |calls| == 0 then
      ([], None)
    else
      match Dispatch(g, calls[0])
      case Failure(e) => ([], Some(e))
      case Success(drawn) =>
        var rest := RunCalls(g, calls[1..]);
        ([drawn.write] + rest.0, rest.1)
  }

  /** Run a handler's step on the session object. Each handler changes the page
      state only after its call returns, so a thrown call leaves the page state
      as it was. */
  function Run(g: Game, d: Drag, s: Step): (r: Outcome)
    ensures r.thrown.Some? <==> |s.calls| > 0 && CheckCanDraw(g).Failure?
    ensures r.thrown.Some? ==> r == Outcome(d, [], Some(CannotDraw))
    ensures r.thrown.None? ==> r.drag == s.drag && |r.writes| == |s.calls|
  {
    var r := RunCalls(g, s.calls);
    if r.1.Some? then Outcome(d, r.0, r.1) else Outcome(s.drag, r.0, None)
  }

  /** A call that succeeds, made twice against one session object, issues its write twice. */
  lemma {:induction false} RunSameCallTwice(g: Game, c: Call)
    requires Dispatch(g, c).Success?
    ensures RunCalls(g, [c, c]) == ([Dispatch(g, c).value.write, Dispatch(g, c).value.write], None)
  {
    var w := Dispatch(g, c).value.write;
    assert [c, c][1..] == [c];
    assert [c][1..] == [];
    assert RunCalls(g, []) == ([], None);
    assert [w] + [] == [w];
    assert RunCalls(g, [c]) == ([w], None);
    assert [w] + [w] == [w, w];
  }

  /** Both writes of a pixel click made before a snapshot arrives hit the same
      leaf with the same text, so the store ends as after a single add. */
  lemma PixelClickWritesOneLeaf(g: Game, d: Drag, x: real, y: real, store: Tree)
    requires d.tool == PixelTool && CheckCanDraw(g).Success?
    ensures var o := Run(g, d, Replay(g.currentPlayer, d, [Down(x, y), Up(x, y)]));
      && o.thrown.None? && |o.writes| == 2 && o.writes[0] == o.writes[1]
      && ApplyAll(store, o.writes) == Apply(store, o.writes[0])
  {
    var call := AddPixelCall(Round(x), Round(y));
    PixelClickAddsTwice(g.currentPlayer, d, x, y);
    assert Dispatch(g, call).Success?;
    RunSameCallTwice(g, call);
    var w := Dispatch(g, call).value.write;
    ApplyTwo(store, w, w);
    ApplyIdempotent(store, w);
  }

  /** The page's judge check reads `game.role`, a property the session object
      never defines, so the check sees `undefined`. */
  function MouseDownAsWritten(g: Game, d: Drag, x: real, y: real): (s: Step)
    ensures d.tool == RectTool ==> s == Step(d.(currentRect := Some(Corners(x, y, x, y))), [])
    ensures d.tool == PixelTool ==> s == Step(d, [AddPixelCall(Round(x), Round(y))])
  {
    MouseDown(None, d, x, y)
  }

  /** The judge check reading the role the session object actually holds. */
  function MouseDownCorrected(g: Game, d: Drag, x: real, y: real): (s: Step)
    ensures g.currentPlayer == Some(Judge) ==> s == Step(d, [])
    ensures g.currentPlayer != Some(Judge) ==> s == MouseDownAsWritten(g, d, x, y)
  {
    MouseDown(g.currentPlayer, d, x, y)
  }

  /** As written, a judge with the default rectangle tool starts a drag; on release
      `addRectangle` throws, so the rectangle is never cleared and stays in progress. */
  lemma JudgeDragAsWritten(g: Game, x: real, y: real, ux: real, uy: real)
    requires g.currentPlayer == Some(Judge)
    ensures var down := MouseDownAsWritten(g, InitialDrag(), x, y);
      && down == Step(Drag(RectTool, Some(Corners(x, y, x, y))), [])
      && Run(g, down.drag, MouseUp(down.drag, ux, uy)) == Outcome(down.drag, [], Some(CannotDraw))
  {
  }

  /** With the check reading the session's role, a judge starting from the page's
      initial state makes no call and starts no drag, whatever the pointer does. */
  lemma {:induction false} JudgeIdleCorrected(g: Game, d: Drag, es: seq<Event>)
    requires g.currentPlayer == Some(Judge)
    requires d.tool != PixelTool && d.currentRect.None?
    ensures forall x: real, y: real :: MouseDownCorrected(g, d, x, y) == Step(d, [])
    ensures Replay(g.currentPlayer, d, es) == Step(d, [])
    decreases |es|
  {
    if |es| > 0 {
      assert Handle(g.currentPlayer, d, es[0]) == Step(d, []);
      JudgeIdleCorrected(g, d, es[1..]);
    }
  }
}

=== FILE: indices.dfy ===
/** Index allocation inside a drawing bucket, and the ascending order in which a
    bucket's values are listed. */
module Indices {

  /** The indices below `n`. */
  function Range(n: nat): (r: set<nat>)
    ensures forall j: nat :: j in r <==> j < n
    ensures |r| == n
  {
    if n == 0 then {} else Range(n - 1) + {n - 1}
  }

  /** A set holding every index below `n` has at least `n` members. */
  lemma DownClosedCardinality(s: set<nat>, n: nat)
    requires forall j: nat :: j < n ==> j in s
    ensures n <= |s|
  {
    var r := Range(n);
    assert r <= s;
    assert s == (s - r) + r;
  }

  /** The scan `while (obj[i] !== undefined) i += 1`, started at `i`. */
  function NextIndexFrom(s: set<nat>, i: nat): (r: nat)
    requires forall j: nat :: j < i ==> j in s
    ensures i <= r && r !in s
    ensures forall j: nat :: j < r ==> j in s
    decreases |s| - i
  {
    if i in s then
      DownClosedCardinality(s, i + 1);
      NextIndexFrom(s, i + 1)
    else
      i
  }

  /** `nextIndex(obj)`: the least index that `obj` does not define. */
  function NextIndex(s: set<nat>): (r: nat)
    ensures r !in s
    ensures forall j: nat :: j < r ==> j in s
  {
    NextIndexFrom(s, 0)
  }

  /** The least free index is the only number with both properties. */
  lemma NextIndexIsLeastFree(s: set<nat>, k: nat)
    ensures k == NextIndex(s) <==> (k !in s && forall j: nat :: j < k ==> j in s)
  {
  }

  /** Examples: an empty bucket allocates 0; a bucket holding 0, 1 and 3 allocates 2. */
  lemma NextIndexExamples()
    ensures NextIndex({}) == 0
    ensures NextIndex({0, 1, 3}) == 2
  {
    NextIndexIsLeastFree({0, 1, 3}, 2);
  }

  /** Adding the allocated index to the bucket makes the next allocation strictly larger. */
  lemma NextIndexGrows(s: set<nat>)
    ensures NextIndex(s + {NextIndex(s)}) > NextIndex(s)
  {
  }

  predicate Increasing(ks: seq<nat>) {
    forall a, b :: 0 <= a < b < |ks| ==> ks[a] < ks[b]
  }

  /** The members of `s` below `n`, in ascending order. */
  function Below(s: set<nat>, n: nat): (ks: seq<nat>)
    ensures Increasing(ks)
    ensures forall k :: k in ks <==> k in s && k < n
  {
    if n == 0 then
      []
    else
      var prefix := Below(s, n - 1);
      assert forall a :: 0 <= a < |prefix| ==> prefix[a] in prefix;
      if n - 1 in s then prefix + [n - 1] else prefix
  }

  /** Raising the bound only appends larger keys. */
  lemma {:induction false} BelowExtends(s: set<nat>, n: nat, m: nat)
    requires n <= m
    ensures |Below(s, n)| <= |Below(s, m)| && Below(s, m)[..|Below(s, n)|] == Below(s, n)
    decreases m
  {
    if n < m {
      BelowExtends(s, n, m - 1);
    }
  }

  /** When every index below `n` is present, the first `n` keys are 0, 1, ..., n - 1. */
  lemma {:induction false} BelowDownClosed(s: set<nat>, n: nat)
    requires forall j: nat :: j < n ==> j in s
    ensures |Below(s, n)| == n
    ensures forall j :: 0 <= j < n ==> Below(s, n)[j] == j
  {
    if n > 0 {
      BelowDownClosed(s, n - 1);
    }
  }

  lemma MaxExists(s: set<nat>)
    requires s != {}
    ensures exists m :: m in s && forall k :: k in s ==> k <= m
  {
    var x :| x in s;
    var rest := s - {x};
    if rest != {} {
      MaxExists(rest);
      var m :| m in rest && forall k :: k in rest ==> k <= m;
      var top := if m < x then x else m;
      forall k | k in s ensures k <= top {
        if k != x {
          assert k in rest;
        }
      }
    } else {
      forall k | k in s ensures k <= x {
        assert k !in rest;
      }
    }
  }

  function Max(s: set<nat>): (m: nat)
    requires s != {}
    ensures m in s && forall k :: k in s ==> k <= m
  {
    MaxExists(s);
    var m :| m in s && forall k :: k in s ==> k <= m;
    m
  }

  /** The members of a sequence, as a set. */
  function Elems(ks: seq<nat>): (r: set<nat>)
    ensures forall k :: k in r <==> k in ks
  {
    if ks == [] then {} else Elems(ks[..|ks| - 1]) + {ks[|ks| - 1]}
  }

  /** An increasing sequence lists each of its members once. */
  lemma {:induction false} IncreasingCardinality(ks: seq<nat>)
    requires Increasing(ks)
    ensures |Elems(ks)| == |ks|
  {
    if ks != [] {
      var init := ks[..|ks| - 1];
      IncreasingCardinality(init);
      assert forall a :: 0 <= a < |init| ==> init[a] < ks[|ks| - 1];
    }
  }

  /** `Object.values` order for numeric keys: every key of `s` once, ascending. */
  function SortedKeys(s: set<nat>): (ks: seq<nat>)
    ensures Increasing(ks)
    ensures forall k :: k in ks <==> k in s
    ensures |ks| == |s|
  {
    if s == {} then
      []
    else
      var ks := Below(s, Max(s) + 1);
      IncreasingCardinality(ks);
      assert Elems(ks) == s;
      ks
  }

  /** When every index up to `k` is present, the key `k` sits at position `k`. */
  lemma {:induction false} DownClosedPosition(s: set<nat>, k: nat)
    requires forall j: nat :: j <= k ==> j in s
    ensures k < |SortedKeys(s)| && SortedKeys(s)[k] == k
  {
    assert k in s;
    DownClosedBelow(s, k, Max(s));
  }

  lemma {:induction false} DownClosedBelow(s: set<nat>, k: nat, top: nat)
    requires forall j: nat :: j <= k ==> j in s
    requires k <= top
    ensures k < |Below(s, top + 1)| && Below(s, top + 1)[k] == k
  {
    var ks := Below(s, top + 1);
    var short := Below(s, k + 1);
    BelowDownClosed(s, k + 1);
    BelowExtends(s, k + 1, top + 1);
    assert ks[..|short|][k] == ks[k];
  }
}

=== FILE: state.dfy ===
/**
  The shared game state of state.js: the `Game` session object, its cached
  snapshot of the remote store, the local role, the drawing buckets and the
  observer list. Every operation is a pure function; a write to the store is
  returned as a `Write` effect instead of being performed, and the cached
  snapshot only changes when a snapshot arrives (`OnValue`).
*/
module State {
  import opened Wrappers
  import opened Store
  import opened Indices
  import opened Codec

  /** A participant's role; `red` and `blue` are the debaters' colours. */
  datatype Role = Red | Blue | Judge

  /** The three drawing buckets of a game. */
  datatype Kind = PixelKind | SketchKind | RectangleKind

  /** The exceptions the session object throws: the drawing guard's,
      `setCurrentPlayer`'s, and the runtime's for reading through `undefined`. */
  datatype Error = CannotDraw | InvalidPlayerType | TypeError | ReferenceError

  function RoleName(r: Role): string {
    match r
    case Red => "red"
    case Blue => "blue"
    case Judge => "judge"
  }

  /** `["red", "blue", "judge"].indexOf(player) !== -1`, and which role it names. */
  function ParseRole(s: string): (r: Option<Role>)
    ensures r.Some? <==> s in {"red", "blue", "judge"}
    ensures r.Some? ==> RoleName(r.value) == s
  {
    if s == "red" then Some(Red)
    else if s == "blue" then Some(Blue)
    else if s == "judge" then Some(Judge)
    else None
  }

  lemma RoleNameRoundTrip(r: Role)
    ensures ParseRole(RoleName(r)) == Some(r)
  {
  }

  function KindName(k: Kind): string {
    match k
    case PixelKind => "pixels"
    case SketchKind => "sketches"
    case RectangleKind => "rectangles"
  }

  /** Paths below the game's own node `games/<code>`. */
  function BucketPath(k: Kind, c: Role): Path {
    [Name(KindName(k)), Name(RoleName(c))]
  }

  const PlayersNode: Path := [Name("players")]

  function PlayerPath(r: Role): Path {
    PlayersNode + [Name(RoleName(r))]
  }

  /** The template `freshNewGame` writes. The store keeps no empty objects, so
      the three kinds' empty `{red: {}, blue: {}}` buckets leave no leaf. */
  function FreshGameTree(): (t: Tree)
    ensures WellFormed(t)
    ensures forall r :: Get(t, PlayerPath(r)) == Some(Num(0))
    ensures forall k, c :: !Exists(t, BucketPath(k, c))
    ensures Get(t, [Name("image")]) == Some(Text(""))
  {
    var t := map[[Name("image")] := Text(""),
                 PlayerPath(Blue) := Num(0),
                 PlayerPath(Judge) := Num(0),
                 PlayerPath(Red) := Num(0)];
    assert forall q :: q in t ==> q[0] in {Name("image"), Name("players")};
    forall k, c ensures !Exists(t, BucketPath(k, c)) {
      forall q | q in t ensures !IsPrefix(BucketPath(k, c), q) {
        assert q[0] != BucketPath(k, c)[0];
      }
    }
    t
  }

  const Alphabet: string := "abcdefghijkmnpqrstuvwxyz23456789"

  /** `genId`'s code, with the seven `Math.random()` draws as parameters: each
      draw picks `chars.charAt(Math.floor(draw * chars.length))`. */
  function GenId(draws: seq<real>): (code: string)
    requires |draws| == 7
    requires forall i :: 0 <= i < 7 ==> 0.0 <= draws[i] < 1.0
    ensures |code| == 7
    ensures forall i :: 0 <= i < 7 ==> code[i] in Alphabet
    ensures forall i :: 0 <= i < 7 ==> code[i] !in "01lo"
  {
    AlphabetAvoidsLookalikes();
    seq(7, i requires 0 <= i < 7 => Alphabet[AlphabetIndex(draws[i])])
  }

  /** The alphabet leaves out the characters that read like others: 0, 1, l and o. */
  lemma AlphabetAvoidsLookalikes()
    ensures forall c :: c in Alphabet ==> c !in "01lo"
  {
    forall k | 0 <= k < |Alphabet| ensures Alphabet[k] !in "01lo" {
    }
  }

  function AlphabetIndex(draw: real): (k: nat)
    requires 0.0 <= draw < 1.0
    ensures k < |Alphabet|
  {
    (draw * 32.0).Floor
  }

  /** Local observers are identified by number; firing one is recording its number. */
  type Observer = nat

  /** The session object: the cached snapshot (`None` while loading), the local
      role (`None` until claimed) and the registered observers. */
  datatype Game = Game(state: Option<Tree>, currentPlayer: Option<Role>, onUpdates: seq<Observer>)

  /** A game object together with the observers fired, in firing order. */
  datatype Notified = Notified(game: Game, fired: seq<Observer>)

  /** The constructor: nothing cached, no role, no observers. */
  function NewGame(): (g: Game)
    ensures IsLoading(g) && g.currentPlayer.None? && g.onUpdates == []
  {
    Game(None, None, [])
  }

  function IsLoading(g: Game): bool {
    g.state.None?
  }

  /** `snap.val()`: `null` when the game's node holds nothing. */
  function SnapshotValue(t: Tree): (r: Option<Tree>)
    ensures r.None? <==> t == map[]
    ensures r.Some? ==> r.value == t
  {
    if t == map[] then None else Some(t)
  }

  /** The constructor's `value` handler: the snapshot replaces the cache
      wholesale and every observer is fired once, in registration order. */
  function OnValue(g: Game, t: Tree): (r: Notified)
    ensures r.fired == g.onUpdates
    ensures r.game.onUpdates == g.onUpdates && r.game.currentPlayer == g.currentPlayer
    ensures IsLoading(r.game) <==> t == map[]
    ensures !IsLoading(r.game) ==> r.game.state.value == t
  {
    Notified(g.(state := SnapshotValue(t)), g.onUpdates)
  }

  /** `onUpdate(f)`: append `f`, then call it once straight away. */
  function OnUpdate(g: Game, f: Observer): (r: Notified)
    ensures r.game.onUpdates == g.onUpdates + [f]
    ensures r.fired == [f]
    ensures r.game.state == g.state && r.game.currentPlayer == g.currentPlayer
  {
    Notified(g.(onUpdates := g.onUpdates + [f]), [f])
  }

  /** `_checkCanDraw`: the snapshot is loaded, `players` is present and the
      local role is a debater colour, which is returned. */
  function CheckCanDraw(g: Game): (r: Result<Role, Error>)
    ensures r.Success? ==> r.value in {Red, Blue} && g.currentPlayer == Some(r.value)
    ensures r.Success? ==> !IsLoading(g) && Exists(g.state.value, PlayersNode)
    ensures r.Failure? ==> r.error == CannotDraw
    ensures g.currentPlayer in {None, Some(Judge)} ==> r.Failure?
  {
    if g.state.None? || !Truthy(g.state.value, []) || !Truthy(g.state.value, PlayersNode) then
      Failure(CannotDraw)
    else if g.currentPlayer == Some(Red) || g.currentPlayer == Some(Blue) then
      Success(g.currentPlayer.value)
    else
      Failure(CannotDraw)
  }

  /** The indices `i` for which `obj[i] !== undefined`, `obj` being the node at `p`:
      an object's numeric children, a text's character positions, nothing for a number. */
  function DefinedIndices(t: Tree, p: Path): (r: set<nat>)
    ensures forall i: nat :: i in r <==>
      (if p in t then t[p].Text? && i < |t[p].s| else Exists(t, p + [Index(i)]))
  {
    if p in t then
      match t[p]
      case Text(s) => Range(|s|)
      case Num(_) => {}
    else
      ChildIndices(t, p)
  }

  /** A node that does not exist defines no index. */
  lemma AbsentNodeDefinesNothing(t: Tree, p: Path)
    requires !Exists(t, p)
    ensures DefinedIndices(t, p) == {}
  {
    assert IsPrefix(p, p);
    forall i ensures !Exists(t, p + [Index(i)]) {
      ExistsAncestor(t, p, [Index(i)]);
    }
  }

  /** When the kind or its bucket is undefined, the bucket defines no index. */
  lemma MissingBucketDefinesNothing(t: Tree, kind: Kind, c: Role)
    requires !Exists(t, [Name(KindName(kind))]) || !Exists(t, BucketPath(kind, c))
    ensures DefinedIndices(t, BucketPath(kind, c)) == {}
  {
    ExistsAncestor(t, [Name(KindName(kind))], [Name(RoleName(c))]);
    AbsentNodeDefinesNothing(t, BucketPath(kind, c));
  }

  /** The index an add in `g` allocates and the write it issues. */
  datatype Drawn = Drawn(index: nat, write: Write)

  /** `_addDrawing`: allocate the least index the CACHED bucket of the caller's
      colour leaves free (0 if the bucket is absent) and write the payload there. */
  function AddDrawing(g: Game, kind: Kind, data: string): (r: Result<Drawn, Error>)
    ensures r.Failure? <==> CheckCanDraw(g).Failure?
    ensures r.Failure? ==> r.error == CannotDraw
    ensures r.Success? ==>
      var b := BucketPath(kind, g.currentPlayer.value);
      var used := DefinedIndices(g.state.value, b);
      && r.value.index !in used
      && (forall j: nat :: j < r.value.index ==> j in used)
      && r.value.write == Write(b + [Index(r.value.index)], Some(Text(data)))
  {
    var c :- CheckCanDraw(g);
    var t := g.state.value;
    var b := BucketPath(kind, c);
    var i := if Exists(t, [Name(KindName(kind))]) && Exists(t, b) then
               NextIndex(DefinedIndices(t, b))
             else
               (MissingBucketDefinesNothing(t, kind, c); 0);
    Success(Drawn(i, Write(b + [Index(i)], Some(Text(data)))))
  }

  /** `_removeDrawing`: write `null` at the given index of the caller's own bucket. */
  function RemoveDrawing(g: Game, kind: Kind, index: nat): (r: Result<Drawn, Error>)
    ensures r.Failure? <==> CheckCanDraw(g).Failure?
    ensures r.Failure? ==> r.error == CannotDraw
    ensures r.Success? ==>
      && r.value.index == index
      && r.value.write == Write(BucketPath(kind, g.currentPlayer.value) + [Index(index)], None)
  {
    var c :- CheckCanDraw(g);
    Success(Drawn(index, Write(BucketPath(kind, c) + [Index(index)], None)))
  }

  /** `addPixel(x, y)`: the point's "x,y" text in the pixel bucket. */
  function AddPixel(g: Game, x: int, y: int): (r: Result<Drawn, Error>)
    ensures r.Failure? <==> CheckCanDraw(g).Failure?
    ensures r.Success? ==>
      && r.value.write.path == BucketPath(PixelKind, g.currentPlayer.value) + [Index(r.value.index)]
      && r.value.write.value == Some(Text(FormatPoint(Point(x, y))))
      && (x >= 0 && y >= 0 ==> DecodePoint(r.value.write.value.value.s) == Some(Point(x, y)))
  {
    var r := AddDrawing(g, PixelKind, SerializeMultiplePixels([Point(x, y)]));
    if x >= 0 && y >= 0 then PointRoundTrip(Point(x, y)); r else r
  }

  /** `addSketch(points)`: the whole stroke as one "x,y|x,y|..." text. */
  function AddSketch(g: Game, points: seq<Point>): (r: Result<Drawn, Error>)
    ensures r.Failure? <==> CheckCanDraw(g).Failure?
    ensures r.Success? ==>
      && r.value.write.path == BucketPath(SketchKind, g.currentPlayer.value) + [Index(r.value.index)]
      && r.value.write.value.Some? && r.value.write.value.value.Text?
      && (|points| >= 1 && (forall i :: 0 <= i < |points| ==> points[i].x >= 0 && points[i].y >= 0)
          ==> DecodePoints(r.value.write.value.value.s) == Some(points))
  {
    var r := AddDrawing(g, SketchKind, SerializeMultiplePixels(points));
    if |points| >= 1 && (forall i :: 0 <= i < |points| ==> points[i].x >= 0 && points[i].y >= 0) then
      PointsRoundTrip(points); r
    else
      r
  }

  function RemoveSketch(g: Game, sketchId: nat): (r: Result<Drawn, Error>)
    ensures r.Failure? <==> CheckCanDraw(g).Failure?
    ensures r.Success? ==> r.value.write == Write(BucketPath(SketchKind, g.currentPlayer.value) + [Index(sketchId)], None)
  {
    RemoveDrawing(g, SketchKind, sketchId)
  }

  /** `addRectangle(x, y, w, h)`: origin and extent as a two-point text. */
  function AddRectangle(g: Game, x: int, y: int, w: int, h: int): (r: Result<Drawn, Error>)
    ensures r.Failure? <==> CheckCanDraw(g).Failure?
    ensures r.Success? ==>
      && r.value.write.path == BucketPath(RectangleKind, g.currentPlayer.value) + [Index(r.value.index)]
      && r.value.write.value.Some? && r.value.write.value.value.Text?
      && (x >= 0 && y >= 0 && w >= 0 && h >= 0
          ==> DecodeRectangle(r.value.write.value.value.s) == Some(Rect(x, y, w, h)))
  {
    var r := AddDrawing(g, RectangleKind, RectanglePayload(Rect(x, y, w, h)));
    if x >= 0 && y >= 0 && w >= 0 && h >= 0 then RectangleRoundTrip(Rect(x, y, w, h)); r else r
  }

  function RemoveRectangle(g: Game, rectId: nat): (r: Result<Drawn, Error>)
    ensures r.Failure? <==> CheckCanDraw(g).Failure?
    ensures r.Success? ==> r.value.write == Write(BucketPath(RectangleKind, g.currentPlayer.value) + [Index(rectId)], None)
  {
    RemoveDrawing(g, RectangleKind, rectId)
  }

  /** The guard `sketches()` and `rectangles()` share: the cache and its
      `sketches` node are both truthy. */
  predicate SketchesTruthy(g: Game) {
    g.state.Some? && Truthy(g.state.value, []) && Truthy(g.state.value, [Name(KindName(SketchKind))])
  }

  /** `sketches()` as written: past its guard it evaluates `player`, a name the
      method neither declares nor receives, so it throws instead of listing. */
  function Sketches(g: Game): (r: Result<seq<seq<PixelFields>>, Error>)
    ensures IsLoading(g) ==> r == Success([])
    ensures r.Failure? <==> SketchesTruthy(g)
    ensures r.Failure? ==> r.error == ReferenceError
    ensures r.Success? ==> r.value == []
  {
    if SketchesTruthy(g) then Failure(ReferenceError) else Success([])
  }

  /** `rectangles()` as written: the same guard on the `sketches` node and the
      same undeclared `player`, so it lists nothing or throws. Each entry would
      be the first two parsed points of a stored text. */
  function Rectangles(g: Game): (r: Result<seq<(PixelFields, PixelFields)>, Error>)
    ensures IsLoading(g) ==> r == Success([])
    ensures r.Failure? <==> SketchesTruthy(g)
    ensures r.Failure? ==> r.error == ReferenceError
    ensures r.Success? ==> r.value == []
  {
    if SketchesTruthy(g) then Failure(ReferenceError) else Success([])
  }

  /** `gameFull()`: all three counters are the number 1. Reading `players.red`
      through a missing `players` throws. */
  function GameFull(g: Game): (r: Result<bool, Error>)
    ensures IsLoading(g) ==> r == Success(false)
    ensures r == Success(true) ==> forall p :: Get(g.state.value, PlayerPath(p)) == Some(Num(1))
    ensures r.Failure? ==> r.error == TypeError && !Exists(g.state.value, PlayersNode)
  {
    if g.state.None? then
      Success(false)
    else
      var t := g.state.value;
      if !Truthy(t, []) then
        Success(false)
      else if !Exists(t, PlayersNode) then
        Failure(TypeError)
      else
        Success(Get(t, PlayerPath(Red)) == Some(Num(1))
                && Get(t, PlayerPath(Blue)) == Some(Num(1))
                && Get(t, PlayerPath(Judge)) == Some(Num(1)))
  }

  /** `gamePlaying()`: the game is full and the local role has been claimed. */
  function GamePlaying(g: Game): (r: Result<bool, Error>)
    ensures r.Failure? <==> GameFull(g).Failure?
    ensures r == Success(true) <==> GameFull(g) == Success(true) && g.currentPlayer.Some?
  {
    var full :- GameFull(g);
    Success(full && g.currentPlayer.Some?)
  }

  /** A claimed role and the counter write that precedes it. */
  datatype Claimed = Claimed(game: Game, write: Write)

  /** `setCurrentPlayer(player)`: reject unknown roles; otherwise write 1 into
      the role's counter and then record the role locally. */
  function SetCurrentPlayer(g: Game, player: string): (r: Result<Claimed, Error>)
    ensures r.Failure? <==> player !in {"red", "blue", "judge"}
    ensures r.Failure? ==> r.error == InvalidPlayerType
    ensures r.Success? ==>
      && r.value.game.currentPlayer.Some?
      && var role := r.value.game.currentPlayer.value;
         && r.value.game == g.(currentPlayer := Some(role))
         && RoleName(role) == player
         && r.value.write == Write(PlayerPath(role), Some(Num(1)))
  {
    match ParseRole(player)
    case None => Failure(InvalidPlayerType)
    case Some(role) => Success(Claimed(g.(currentPlayer := Some(role)), Write(PlayerPath(role), Some(Num(1)))))
  }

  /** The child of a pixel bucket holds a text (an encoded pixel). */
  predicate IsTextLeaf(t: Tree, p: Path) {
    p in t && t[p].Text?
  }

  /** `Object.values(bucket).map(parsePixel)` for an object bucket: its numeric
      children in ascending order; a child that is not a text makes `s.match` throw. */
  function ParseBucket(t: Tree, b: Path): (r: Result<seq<PixelFields>, Error>)
    ensures var ks := SortedKeys(ChildIndices(t, b));
      && (r.Success? <==> forall k :: k in ks ==> IsTextLeaf(t, b + [Index(k)]))
      && (r.Success? ==>
            && |r.value| == |ChildIndices(t, b)|
            && forall j :: 0 <= j < |ks| ==> r.value[j] == ParsePixel(t[b + [Index(ks[j])]].s))
  {
    var ks := SortedKeys(ChildIndices(t, b));
    if forall k :: k in ks ==> IsTextLeaf(t, b + [Index(k)]) then
      Success(seq(|ks|, j requires 0 <= j < |ks| => ParsePixel(t[b + [Index(ks[j])]].s)))
    else
      Failure(TypeError)
  }

  /** A bucket that reads as falsy, in a well-formed tree, has no numeric children. */
  lemma FalsyBucketHasNoChildren(t: Tree, b: Path)
    requires |b| == 2 && b !in t
    requires !Truthy(t, []) || !Truthy(t, b[..1]) || !Truthy(t, b)
    ensures WellFormed(t) ==> ChildIndices(t, b) == {}
  {
    assert b == [] + b == b[..1] + b[1..];
    ExistsAncestor(t, [], b);
    ExistsAncestor(t, b[..1], b[1..]);
    LeafHasNoDescendants(t, [], b);
    LeafHasNoDescendants(t, b[..1], b[1..]);
    forall i ensures Exists(t, b + [Index(i)]) ==> Exists(t, b) {
      ExistsAncestor(t, b, [Index(i)]);
    }
  }

  /** `pixels(player)`: the as-written parse of every value in the player's pixel
      bucket, in ascending index order; `[]` while loading or when the bucket is
      falsy. A bucket child that is not a text makes `s.match` throw. */
  function Pixels(g: Game, player: Role): (r: Result<seq<PixelFields>, Error>)
    ensures IsLoading(g) ==> r == Success([])
    ensures !IsLoading(g) && WellFormed(g.state.value) && BucketPath(PixelKind, player) !in g.state.value ==>
      r == ParseBucket(g.state.value, BucketPath(PixelKind, player))
  {
    if g.state.None? then
      Success([])
    else
      var t := g.state.value;
      var b := BucketPath(PixelKind, player);
      if !Truthy(t, []) || !Truthy(t, [Name("pixels")]) || !Truthy(t, b) then
        if b in t then
          Success([])
        else
          assert b[..1] == [Name("pixels")];
          FalsyBucketHasNoChildren(t, b);
          Success([])
      else if b in t then
        match t[b]
        case Text(s) => Success(seq(|s|, k requires 0 <= k < |s| => ParsePixel([s[k]])))
        case Num(_) => Success([])
      else
        ParseBucket(t, b)
  }
}

=== FILE: state_properties.dfy ===
/**
  Properties of the session object that relate several operations: the stale
  cache behind index allocation, last-write-wins role claims, the scope of
  removals, fullness, the observer list, and what `pixels` shows after an add.
*/
module StateProperties {
  import opened Wrappers
  import opened Store
  import opened Indices
  import opened Codec
  import opened State

  /** A fresh session object is loading, cannot draw and is not full. */
  lemma NewGameIsIdle()
    ensures IsLoading(NewGame())
    ensures CheckCanDraw(NewGame()) == Failure(CannotDraw)
    ensures GameFull(NewGame()) == Success(false)
    ensures GamePlaying(NewGame()) == Success(false)
  {
  }

  /** A judge, or a client that has claimed nothing, can neither add nor remove. */
  lemma NonDebatersNeverWrite(g: Game, kind: Kind, data: string, index: nat)
    requires g.currentPlayer == None || g.currentPlayer == Some(Judge)
    ensures AddDrawing(g, kind, data) == Failure(CannotDraw)
    ensures RemoveDrawing(g, kind, index) == Failure(CannotDraw)
  {
  }

  /** A debater with a loaded snapshot that holds `players` may draw, whatever else the snapshot holds. */
  lemma DebatersMayDraw(g: Game)
    requires g.currentPlayer == Some(Red) || g.currentPlayer == Some(Blue)
    requires g.state.Some? && WellFormed(g.state.value)
    requires exists r :: PlayerPath(r) in g.state.value
    ensures CheckCanDraw(g) == Success(g.currentPlayer.value)
  {
    var t := g.state.value;
    var r :| PlayerPath(r) in t;
    assert IsPrefix([], PlayerPath(r)) && IsPrefix(PlayersNode, PlayerPath(r));
    assert [] !in t && PlayersNode !in t;
  }

  /** Two adds issued before a new snapshot arrives read the same stale bucket:
      they get the same index and the second payload overwrites the first. */
  lemma StaleAddsCollide(g: Game, kind: Kind, d1: string, d2: string, store: Tree)
    requires AddDrawing(g, kind, d1).Success?
    ensures AddDrawing(g, kind, d2).Success?
    ensures AddDrawing(g, kind, d1).value.index == AddDrawing(g, kind, d2).value.index
    ensures var p := AddDrawing(g, kind, d1).value.write.path;
      Get(ApplyAll(store, [AddDrawing(g, kind, d1).value.write, AddDrawing(g, kind, d2).value.write]), p)
        == Some(Text(d2))
  {
    var w1 := AddDrawing(g, kind, d1).value.write;
    var w2 := AddDrawing(g, kind, d2).value.write;
    assert w2 == Write(w1.path, Some(Text(d2)));
    ApplyTwo(store, w1, w2);
    LastWriteWins(store, w1.path, w1.value, w2.value);
  }

  /** The first drawing of each kind in a freshly created game gets index 0. */
  lemma FirstDrawingGetsIndexZero(g: Game, kind: Kind, data: string)
    requires g.state == Some(FreshGameTree())
    requires g.currentPlayer == Some(Red) || g.currentPlayer == Some(Blue)
    ensures AddDrawing(g, kind, data).Success?
    ensures AddDrawing(g, kind, data).value.index == 0
  {
    var t := FreshGameTree();
    assert PlayerPath(Red) in t;
    DebatersMayDraw(g);
    AbsentNodeDefinesNothing(t, BucketPath(kind, g.currentPlayer.value));
  }

  /** An add's write adds exactly its index to the caller's bucket. */
  lemma AddExtendsBucket(g: Game, kind: Kind, data: string)
    requires AddDrawing(g, kind, data).Success?
    ensures var c := g.currentPlayer.value;
      var d := AddDrawing(g, kind, data).value;
      ChildIndices(Apply(g.state.value, d.write), BucketPath(kind, c))
        == ChildIndices(g.state.value, BucketPath(kind, c)) + {d.index}
  {
    var d := AddDrawing(g, kind, data).value;
    WriteAddsChild(g.state.value, BucketPath(kind, g.currentPlayer.value), d.index, Text(data));
  }

  /** The snapshot that carries an add's own write still lets the same debater draw. */
  lemma AddSnapshotKeepsGuard(g: Game, kind: Kind, data: string)
    requires AddDrawing(g, kind, data).Success?
    ensures var w := AddDrawing(g, kind, data).value.write;
      CheckCanDraw(OnValue(g, Apply(g.state.value, w)).game) == CheckCanDraw(g)
  {
    var t := g.state.value;
    var w := AddDrawing(g, kind, data).value.write;
    assert w.path[0] != PlayersNode[0];
    UnrelatedNodeKept(t, w, PlayersNode);
    WrittenTreeIsTruthy(t, w);
    assert w.path in Apply(t, w);
  }

  /** Once the add's own write has come back as the new snapshot, the next add
      in that bucket gets a strictly larger index: no collision. */
  lemma AddAfterSnapshotAdvances(g: Game, kind: Kind, d1: string, d2: string)
    requires AddDrawing(g, kind, d1).Success?
    requires BucketPath(kind, g.currentPlayer.value) !in g.state.value
    ensures var first := AddDrawing(g, kind, d1).value;
      var g' := OnValue(g, Apply(g.state.value, first.write)).game;
      && AddDrawing(g', kind, d2).Success?
      && AddDrawing(g', kind, d2).value.index > first.index
  {
    var t := g.state.value;
    var b := BucketPath(kind, g.currentPlayer.value);
    var first := AddDrawing(g, kind, d1).value;
    var t' := Apply(t, first.write);
    var g' := OnValue(g, t').game;
    AddSnapshotKeepsGuard(g, kind, d1);
    assert first.write.path in t';
    assert g'.state == Some(t') && g'.currentPlayer == g.currentPlayer;
    AddExtendsBucket(g, kind, d1);
    assert b !in t' by {
      assert b != first.write.path;
    }
    var used := ChildIndices(t, b);
    assert DefinedIndices(t', b) == used + {first.index};
    NextIndexIsLeastFree(used, first.index);
    NextIndexGrows(used);
    assert IsPrefix(b, first.write.path) && IsPrefix([Name(KindName(kind))], first.write.path);
    var second := AddDrawing(g', kind, d2).value;
    assert second.index == NextIndex(used + {first.index});
  }

  lemma BucketPathInjective(k1: Kind, c1: Role, k2: Kind, c2: Role)
    ensures BucketPath(k1, c1) == BucketPath(k2, c2) ==> k1 == k2 && c1 == c2
  {
    if BucketPath(k1, c1) == BucketPath(k2, c2) {
      assert KindName(k1) == BucketPath(k1, c1)[0].name == KindName(k2);
      assert RoleName(c1) == BucketPath(k1, c1)[1].name == RoleName(c2);
    }
  }

  /** A removal writes only below the caller's own bucket: every leaf of every
      other bucket is kept. */
  lemma RemoveKeepsOtherBuckets(g: Game, kind: Kind, index: nat, store: Tree, k: Kind, c: Role)
    requires RemoveDrawing(g, kind, index).Success?
    requires (k, c) != (kind, g.currentPlayer.value)
    ensures forall q :: q in store && IsPrefix(BucketPath(k, c), q) ==>
      var r := Apply(store, RemoveDrawing(g, kind, index).value.write);
      q in r && r[q] == store[q]
  {
    var w := RemoveDrawing(g, kind, index).value.write;
    var b := BucketPath(k, c);
    var own := BucketPath(kind, g.currentPlayer.value);
    BucketPathInjective(k, c, kind, g.currentPlayer.value);
    assert w.path[..2] == own != b;
    forall q | q in store && IsPrefix(b, q) ensures !IsPrefix(w.path, q) {
      PrefixesComparable(b, w.path, q);
    }
  }

  /** Removing an index the bucket does not hold leaves the store as it was. */
  lemma RemoveAbsentIsNoOp(g: Game, kind: Kind, index: nat, store: Tree)
    requires RemoveDrawing(g, kind, index).Success?
    requires index !in ChildIndices(store, BucketPath(kind, g.currentPlayer.value))
    ensures Apply(store, RemoveDrawing(g, kind, index).value.write) == store
  {
    DeleteAbsentIsNoOp(store, BucketPath(kind, g.currentPlayer.value) + [Index(index)]);
  }

  /** Two clients racing for the same role both succeed locally, and in either
      arrival order the shared counter ends at 1, not 2. */
  lemma RacingClaimsBothSucceed(g1: Game, g2: Game, role: Role, store: Tree)
    ensures SetCurrentPlayer(g1, RoleName(role)).Success?
    ensures SetCurrentPlayer(g2, RoleName(role)).Success?
    ensures SetCurrentPlayer(g1, RoleName(role)).value.game.currentPlayer == Some(role)
    ensures SetCurrentPlayer(g2, RoleName(role)).value.game.currentPlayer == Some(role)
    ensures var w1 := SetCurrentPlayer(g1, RoleName(role)).value.write;
      var w2 := SetCurrentPlayer(g2, RoleName(role)).value.write;
      && Get(ApplyAll(store, [w1, w2]), PlayerPath(role)) == Some(Num(1))
      && Get(ApplyAll(store, [w2, w1]), PlayerPath(role)) == Some(Num(1))
  {
    RoleNameRoundTrip(role);
    var w := Write(PlayerPath(role), Some(Num(1)));
    ApplyTwo(store, w, w);
    LastWriteWins(store, PlayerPath(role), w.value, w.value);
  }

  /** The write some successful `setCurrentPlayer` issues. */
  predicate IsClaim(w: Write) {
    exists r :: w == Write(PlayerPath(r), Some(Num(1)))
  }

  /** However many claims arrive, in whatever order, each counter is either
      untouched or exactly 1: claims overwrite, they never add up. */
  lemma {:induction false} ClaimsNeverCountTwo(store: Tree, ws: seq<Write>, r: Role)
    requires forall i :: 0 <= i < |ws| ==> IsClaim(ws[i])
    ensures Get(ApplyAll(store, ws), PlayerPath(r)) in {Get(store, PlayerPath(r)), Some(Num(1))}
    decreases |ws|
  {
    if |ws| > 0 {
      var next := Apply(store, ws[0]);
      var s :| ws[0] == Write(PlayerPath(s), Some(Num(1)));
      if s != r {
        assert !IsPrefix(PlayerPath(s), PlayerPath(r)) && !IsPrefix(PlayerPath(r), PlayerPath(s)) by {
          assert PlayerPath(s)[1] != PlayerPath(r)[1];
        }
        assert Get(next, PlayerPath(r)) == Get(store, PlayerPath(r)) by {
          if PlayerPath(r) in next {
            assert PlayerPath(r) in store;
          }
        }
      }
      ClaimsNeverCountTwo(next, ws[1..], r);
    }
  }

  /** Under a well-formed snapshot, `gameFull` holds exactly when all three counters are the number 1. */
  lemma FullIffAllCountersOne(g: Game)
    requires g.state.Some? ==> WellFormed(g.state.value)
    ensures GameFull(g) == Success(true) <==>
      g.state.Some? && forall r :: Get(g.state.value, PlayerPath(r)) == Some(Num(1))
  {
    if g.state.Some? && forall r :: Get(g.state.value, PlayerPath(r)) == Some(Num(1)) {
      var t := g.state.value;
      assert PlayerPath(Red) in t;
      assert IsPrefix([], PlayerPath(Red)) && IsPrefix(PlayersNode, PlayerPath(Red));
      assert [] !in t;
    }
  }

  /** A freshly created game is not full, and nobody in it is playing yet. */
  lemma FreshGameNotFull(g: Game)
    requires g.state == Some(FreshGameTree())
    ensures GameFull(g) == Success(false)
    ensures GamePlaying(g) == Success(false)
  {
    FullIffAllCountersOne(g);
    assert Get(FreshGameTree(), PlayerPath(Red)) == Some(Num(0));
    assert GameFull(g).Success? by {
      assert PlayerPath(Red) in FreshGameTree();
      assert IsPrefix(PlayersNode, PlayerPath(Red));
    }
  }

  /** `onUpdate` applied to each observer of `fs` in turn. */
  function RegisterAll(g: Game, fs: seq<Observer>): Notified
    decreases |fs|
  {
    if |fs| == 0 then
      Notified(g, [])
    else
      var n := OnUpdate(g, fs[0]);
      var rest := RegisterAll(n.game, fs[1..]);
      Notified(rest.game, n.fired + rest.fired)
  }

  /** Registering observers calls each one once, immediately, in order; every
      later snapshot replaces the cache and calls all of them once more, in
      registration order. */
  lemma {:induction false} ObserversFireInRegistrationOrder(g: Game, fs: seq<Observer>, t: Tree)
    ensures RegisterAll(g, fs).fired == fs
    ensures RegisterAll(g, fs).game == g.(onUpdates := g.onUpdates + fs)
    ensures OnValue(RegisterAll(g, fs).game, t).fired == g.onUpdates + fs
    decreases |fs|
  {
    if |fs| > 0 {
      var n := OnUpdate(g, fs[0]);
      ObserversFireInRegistrationOrder(n.game, fs[1..], t);
      assert [fs[0]] + fs[1..] == fs;
      assert g.onUpdates + [fs[0]] + fs[1..] == g.onUpdates + fs;
    }
  }

  /** The session object after the `value` handler has received each snapshot of `ts` in turn. */
  function ReceiveAll(g: Game, ts: seq<Tree>): Game
    decreases |ts|
  {
    if |ts| == 0 then g else ReceiveAll(OnValue(g, ts[0]).game, ts[1..])
  }

  /** `isLoading()` after a run of snapshots: only the latest one counts, and the
      session is loading exactly when that one was empty; otherwise it caches it. */
  lemma {:induction false} LoadingFollowsLatestSnapshot(g: Game, ts: seq<Tree>)
    requires |ts| > 0
    ensures IsLoading(ReceiveAll(g, ts)) <==> ts[|ts| - 1] == map[]
    ensures !IsLoading(ReceiveAll(g, ts)) ==> ReceiveAll(g, ts).state.value == ts[|ts| - 1]
    ensures ReceiveAll(g, ts).currentPlayer == g.currentPlayer && ReceiveAll(g, ts).onUpdates == g.onUpdates
    decreases |ts|
  {
    if |ts| > 1 {
      LoadingFollowsLatestSnapshot(OnValue(g, ts[0]).game, ts[1..]);
      assert ts[1..][|ts[1..]| - 1] == ts[|ts| - 1];
    }
  }

  /** A stored rectangle is never listed: once an add's write comes back as the
      snapshot of a store with no sketches, `rectangles()` returns `[]`. */
  lemma AddedRectangleNotListed(g: Game, x: int, y: int, w: int, h: int, store: Tree)
    requires AddRectangle(g, x, y, w, h).Success?
    requires !Exists(store, [Name("sketches")])
    ensures Rectangles(OnValue(g, Apply(store, AddRectangle(g, x, y, w, h).value.write)).game) == Success([])
  {
    var wr := AddRectangle(g, x, y, w, h).value.write;
    assert wr.path[0] == Name("rectangles");
    OtherKindKeepsSketchesFalsy(store, wr);
  }

  /** A write under another kind's node leaves a missing `sketches` node falsy. */
  lemma OtherKindKeepsSketchesFalsy(store: Tree, wr: Write)
    requires |wr.path| > 0 && wr.path[0] != Name("sketches")
    requires !Exists(store, [Name("sketches")])
    ensures !Truthy(Apply(store, wr), [Name("sketches")])
  {
    var sk: Path := [Name("sketches")];
    assert !IsPrefix(sk, wr.path) by { assert wr.path[..1] != sk; }
    UnrelatedNodeKept(store, wr, sk);
  }

  /** Once any sketch has been stored and comes back as the snapshot, both
      `sketches()` and `rectangles()` throw. */
  lemma StoredSketchBreaksListings(g: Game, points: seq<Point>, store: Tree)
    requires AddSketch(g, points).Success?
    ensures var g' := OnValue(g, Apply(store, AddSketch(g, points).value.write)).game;
      && Sketches(g') == Failure(ReferenceError)
      && Rectangles(g') == Failure(ReferenceError)
  {
    var wr := AddSketch(g, points).value.write;
    var sk: Path := [Name(KindName(SketchKind))];
    var t := Apply(store, wr);
    WrittenTreeIsTruthy(store, wr);
    assert IsPrefix(sk, wr.path);
    assert Exists(t, sk);
    assert sk !in t;
  }

  /** A snapshot is not merged into the cache: two session objects that receive
      the same snapshot cache the same state, whatever they held before, and no
      leaf of the old state survives unless the snapshot has it. */
  lemma SnapshotReplacesWholesale(g1: Game, g2: Game, t: Tree)
    ensures OnValue(g1, t).game.state == OnValue(g2, t).game.state
    ensures forall q :: !IsLoading(OnValue(g1, t).game) && q in OnValue(g1, t).game.state.value ==> q in t
  {
  }

  /** Every child of the node at `b` is a text, as every pixel bucket child is. */
  predicate TextChildren(t: Tree, b: Path) {
    forall k :: k in ChildIndices(t, b) ==> IsTextLeaf(t, b + [Index(k)])
  }

  /** Writing a text as a new child of a bucket whose children are all texts
      leaves every child of the bucket a text. */
  lemma WriteKeepsTextChildren(t: Tree, b: Path, i: nat, s: string)
    requires i !in ChildIndices(t, b)
    requires forall k :: k in ChildIndices(t, b) ==> IsTextLeaf(t, b + [Index(k)])
    ensures var t' := Apply(t, Write(b + [Index(i)], Some(Text(s))));
      forall k :: k in ChildIndices(t', b) ==> IsTextLeaf(t', b + [Index(k)])
  {
    var w := Write(b + [Index(i)], Some(Text(s)));
    var t' := Apply(t, w);
    WriteAddsChild(t, b, i, Text(s));
    forall k | k in ChildIndices(t', b) && k != i ensures IsTextLeaf(t', b + [Index(k)]) {
      var q := b + [Index(k)];
      assert IsTextLeaf(t, q);
      assert q[|b|] != w.path[|b|] && |q| == |w.path|;
      assert !IsPrefix(w.path, q) && !IsPrefix(q, w.path);
    }
  }

  /** Listing an object bucket succeeds exactly when every child is a text. */
  lemma ParseBucketIffTextChildren(t: Tree, b: Path)
    ensures ParseBucket(t, b).Success? <==> TextChildren(t, b)
  {
    var ks := SortedKeys(ChildIndices(t, b));
    assert forall k :: k in ks <==> k in ChildIndices(t, b);
  }

  /** Writing a text at the least free index of a bucket whose children are all
      texts lists that text's parse at the position equal to the index. */
  lemma ListingAfterWrite(t: Tree, b: Path, i: nat, s: string)
    requires b !in t && |b| == 2
    requires i !in ChildIndices(t, b) && forall j: nat :: j < i ==> j in ChildIndices(t, b)
    requires ParseBucket(t, b).Success?
    ensures var r := ParseBucket(Apply(t, Write(b + [Index(i)], Some(Text(s)))), b);
      r.Success? && i < |r.value| && r.value[i] == ParsePixel(s)
  {
    var w := Write(b + [Index(i)], Some(Text(s)));
    var t' := Apply(t, w);
    ParseBucketIffTextChildren(t, b);
    WriteKeepsTextChildren(t, b, i, s);
    ParseBucketIffTextChildren(t', b);
    WriteAddsChild(t, b, i, Text(s));
    ListedAtOwnIndex(t', b, i);
  }

  /** In a listable bucket holding every index up to `i`, the `i`-th listed value
      is the parse of child `i`. */
  lemma ListedAtOwnIndex(t: Tree, b: Path, i: nat)
    requires ParseBucket(t, b).Success?
    requires forall j: nat :: j <= i ==> j in ChildIndices(t, b)
    ensures i < |ParseBucket(t, b).value|
    ensures b + [Index(i)] in t && t[b + [Index(i)]].Text?
    ensures ParseBucket(t, b).value[i] == ParsePixel(t[b + [Index(i)]].s)
  {
    DownClosedPosition(ChildIndices(t, b), i);
    ParseBucketIffTextChildren(t, b);
  }

  /** A snapshot that leaves a debater's pixel bucket an object is listed by `ParseBucket`. */
  lemma PixelsOfSnapshot(g: Game, t: Tree, c: Role)
    requires WellFormed(t) && |t| > 0
    requires BucketPath(PixelKind, c) !in t
    ensures Pixels(OnValue(g, t).game, c) == ParseBucket(t, BucketPath(PixelKind, c))
  {
  }

  /** The write of `addPixel` and the cached bucket it was allocated against. */
  lemma AddPixelAllocation(g: Game, x: int, y: int)
    requires CheckCanDraw(g).Success?
    requires BucketPath(PixelKind, g.currentPlayer.value) !in g.state.value
    requires TextChildren(g.state.value, BucketPath(PixelKind, g.currentPlayer.value))
    ensures AddPixel(g, x, y).Success?
    ensures var d := AddPixel(g, x, y).value;
      var b := BucketPath(PixelKind, g.currentPlayer.value);
      && d.write == Write(b + [Index(d.index)], Some(Text(FormatPoint(Point(x, y)))))
      && ParseBucket(g.state.value, b).Success?
      && d.index !in ChildIndices(g.state.value, b)
      && forall j: nat :: j < d.index ==> j in ChildIndices(g.state.value, b)
  {
  }

  /** After a debater adds a pixel and that write comes back as the snapshot,
      `pixels` lists it at position `index` (every smaller index is taken), parsed
      by the as-written decoder. */
  lemma AddedPixelIsListed(g: Game, x: int, y: int)
    requires CheckCanDraw(g).Success?
    requires WellFormed(g.state.value)
    requires BucketPath(PixelKind, g.currentPlayer.value) !in g.state.value
    requires TextChildren(g.state.value, BucketPath(PixelKind, g.currentPlayer.value))
    ensures AddPixel(g, x, y).Success?
    ensures var d := AddPixel(g, x, y).value;
      var g' := OnValue(g, Apply(g.state.value, d.write)).game;
      && Pixels(g', g.currentPlayer.value).Success?
      && d.index < |Pixels(g', g.currentPlayer.value).value|
      && Pixels(g', g.currentPlayer.value).value[d.index] == ParsePixel(FormatPoint(Point(x, y)))
  {
    var t := g.state.value;
    var c := g.currentPlayer.value;
    var b := BucketPath(PixelKind, c);
    AddPixelAllocation(g, x, y);
    var d := AddPixel(g, x, y).value;
    var t' := Apply(t, d.write);
    assert d.write.path in t';
    assert b !in t' by {
      assert b != d.write.path;
    }
    PixelsOfSnapshot(g, t', c);
    ListingAfterWrite(t, b, d.index, FormatPoint(Point(x, y)));
  }
}

=== FILE: store.dfy ===
/**
  The remote synchronized tree store, as an immutable value.

  A tree is a map from the paths of its LEAVES to their primitive values.
  Object nodes are implicit: a node exists exactly when some leaf lies at or
  below it, which is also how the store treats empty objects (it does not keep
  them). Every write the game issues is a `Write(path, value)` effect; writing
  `None` (the store's `null`) deletes the subtree at `path`.
*/
module Store {
  import opened Wrappers

  /** One path segment: a named child, or a numeric child such as a drawing index. */
  datatype Seg = Name(name: string) | Index(index: nat)

  type Path = seq<Seg>

  /** A leaf value: a number (player counters) or a text (encoded drawings, the image reference). */
  datatype Value = Num(n: int) | Text(s: string)

  type Tree = map<Path, Value>

  datatype Write = Write(path: Path, value: Option<Value>)

  predicate IsPrefix(p: Path, q: Path) {
    |p| <= |q| && q[..|p|] == p
  }

  /** JavaScript's `node !== undefined`: some leaf lies at or below `p`. */
  predicate Exists(t: Tree, p: Path) {
    exists q :: q in t && IsPrefix(p, q)
  }

  /** JavaScript truthiness of the node at `p`: objects are truthy, `0` and `""` are not. */
  predicate Truthy(t: Tree, p: Path) {
    if p in t then
      match t[p]
      case Num(n) => n != 0
      case Text(s) => s != ""
    else
      Exists(t, p)
  }

  function Get(t: Tree, p: Path): Option<Value> {
    if p in t then Some(t[p]) else None
  }

  /** No leaf lies below another leaf: the map describes an actual tree. */
  ghost predicate WellFormed(t: Tree) {
    forall p, q :: p in t && q in t && IsPrefix(p, q) ==> p == q
  }

  /** The numeric children of the node at `p`. */
  function ChildIndices(t: Tree, p: Path): (r: set<nat>)
    ensures forall i :: i in r <==> Exists(t, p + [Index(i)])
  {
    var r := set q: Path | q in t && |p| < |q| && IsPrefix(p, q) && q[|p|].Index? :: q[|p|].index;
    forall i | Exists(t, p + [Index(i)]) ensures i in r {
      var q :| q in t && IsPrefix(p + [Index(i)], q);
      assert q[..|p|] == (p + [Index(i)])[..|p|] == p;
    }
    forall i | i in r ensures Exists(t, p + [Index(i)]) {
      var q :| q in t && |p| < |q| && IsPrefix(p, q) && q[|p|] == Index(i);
      assert q[..|p| + 1] == q[..|p|] + [q[|p|]];
      assert IsPrefix(p + [Index(i)], q);
    }
    r
  }

  /** A node with a defined descendant is itself defined. */
  lemma ExistsAncestor(t: Tree, p: Path, x: Path)
    ensures Exists(t, p + x) ==> Exists(t, p)
  {
    forall q | q in t && IsPrefix(p + x, q) ensures IsPrefix(p, q) {
      assert q[..|p|] == (p + x)[..|p|] == p;
    }
  }

  /** In a well-formed tree nothing lies below a leaf. */
  lemma LeafHasNoDescendants(t: Tree, p: Path, x: Path)
    ensures WellFormed(t) && p in t && |x| > 0 ==> !Exists(t, p + x)
  {
    forall q | |x| > 0 && q in t && IsPrefix(p + x, q) ensures IsPrefix(p, q) && q != p {
      assert q[..|p|] == (p + x)[..|p|] == p;
      assert |q| > |p|;
    }
  }

  /** The store's `set`: the leaf at `w.path` receives the value (or is deleted),
      replacing whatever lay below it and any leaf standing in for one of its ancestors. */
  function Apply(t: Tree, w: Write): (r: Tree)
    ensures w.value.Some? ==> w.path in r && r[w.path] == w.value.value
    ensures w.value.None? ==> !Exists(r, w.path)
    ensures forall q :: q in r && q != w.path ==> q in t && r[q] == t[q]
    ensures forall q :: q in t && !IsPrefix(w.path, q) && !IsPrefix(q, w.path) ==> q in r && r[q] == t[q]
    ensures WellFormed(t) ==> WellFormed(r)
  {
    var kept := map q | q in t && !IsPrefix(w.path, q) && (w.value.None? || !IsPrefix(q, w.path)) :: t[q];
    if w.value.Some? then kept[w.path := w.value.value] else kept
  }

  /** Deleting a node that does not exist changes nothing. */
  lemma DeleteAbsentIsNoOp(t: Tree, p: Path)
    requires !Exists(t, p)
    ensures Apply(t, Write(p, None)) == t
  {
    var r := Apply(t, Write(p, None));
    forall q | q in t ensures q in r {
      assert !IsPrefix(p, q);
    }
  }

  /** Last write wins per leaf: after two writes to one path, the leaf holds the second value. */
  lemma LastWriteWins(t: Tree, p: Path, v1: Option<Value>, v2: Option<Value>)
    ensures Get(Apply(Apply(t, Write(p, v1)), Write(p, v2)), p) == v2
  {
    if v2.None? {
      assert IsPrefix(p, p);
    }
  }

  /** Repeating a write has no further effect: a claim or a colliding add written twice leaves one leaf. */
  lemma ApplyIdempotent(t: Tree, w: Write)
    ensures Apply(Apply(t, w), w) == Apply(t, w)
  {
    var r1 := Apply(t, w);
    var r2 := Apply(r1, w);
    forall q | q in r1 ensures q in r2 && r2[q] == r1[q] {
      if q != w.path {
        assert !IsPrefix(w.path, q) && (w.value.None? || !IsPrefix(q, w.path));
      }
    }
  }

  /** Writers to unrelated leaf paths never conflict: their writes commute. */
  lemma UnrelatedWritesCommute(t: Tree, w1: Write, w2: Write)
    requires !IsPrefix(w1.path, w2.path) && !IsPrefix(w2.path, w1.path)
    ensures Apply(Apply(t, w1), w2) == Apply(Apply(t, w2), w1)
  {
    var a := Apply(Apply(t, w1), w2);
    var b := Apply(Apply(t, w2), w1);
    forall q | q in a ensures q in b && b[q] == a[q] {
    }
    forall q | q in b ensures q in a {
    }
  }

  /** Writing a value at child `i` of `p` adds `i` to the numeric children of `p`
      and keeps every other child. */
  lemma WriteAddsChild(t: Tree, p: Path, i: nat, v: Value)
    ensures ChildIndices(Apply(t, Write(p + [Index(i)], Some(v))), p) == ChildIndices(t, p) + {i}
  {
    var w := Write(p + [Index(i)], Some(v));
    var r := Apply(t, w);
    forall j ensures Exists(r, p + [Index(j)]) <==> Exists(t, p + [Index(j)]) || j == i {
      if j == i {
        assert IsPrefix(w.path, w.path);
      }
      if Exists(t, p + [Index(j)]) && j != i {
        var q :| q in t && IsPrefix(p + [Index(j)], q);
        assert q[|p|] == (p + [Index(j)])[|p|] == Index(j);
        assert !IsPrefix(w.path, q) by {
          assert w.path[|p|] == Index(i);
        }
        assert !IsPrefix(q, w.path) by {
          assert |q| >= |w.path|;
        }
        assert q in r;
      }
      if Exists(r, p + [Index(j)]) {
        var q :| q in r && IsPrefix(p + [Index(j)], q);
        if q == w.path {
          assert w.path[|p|] == Index(j);
        } else {
          assert q in t;
        }
      }
    }
  }

  /** A sequence of writes applied in order, as the store receives them. */
  function ApplyAll(t: Tree, ws: seq<Write>): Tree
    decreases |ws|
  {
    if |ws| == 0 then t else ApplyAll(Apply(t, ws[0]), ws[1..])
  }

  lemma ApplyTwo(t: Tree, w1: Write, w2: Write)
    ensures ApplyAll(t, [w1, w2]) == Apply(Apply(t, w1), w2)
  {
    assert [w1, w2][1..] == [w2];
    assert [w2][1..] == [];
    var t1 := Apply(t, w1);
    assert ApplyAll(t, [w1, w2]) == ApplyAll(t1, [w2]);
    assert ApplyAll(t1, [w2]) == ApplyAll(Apply(t1, w2), []);
  }

  /** Two prefixes of one path are prefixes of each other, one way or the other. */
  lemma PrefixesComparable(a: Path, b: Path, q: Path)
    ensures IsPrefix(a, q) && IsPrefix(b, q) ==> IsPrefix(a, b) || IsPrefix(b, a)
  {
    if IsPrefix(a, q) && IsPrefix(b, q) {
      if |a| <= |b| {
        assert b[..|a|] == q[..|a|];
      } else {
        assert a[..|b|] == q[..|b|];
      }
    }
  }

  lemma PrefixTransitive(a: Path, b: Path, c: Path)
    ensures IsPrefix(a, b) && IsPrefix(b, c) ==> IsPrefix(a, c)
  {
    if IsPrefix(a, b) && IsPrefix(b, c) {
      assert c[..|a|] == c[..|b|][..|a|];
    }
  }

  /** A node unrelated to the written path keeps its existence and truthiness. */
  lemma UnrelatedNodeKept(t: Tree, w: Write, p: Path)
    requires !IsPrefix(p, w.path) && !IsPrefix(w.path, p)
    ensures Exists(Apply(t, w), p) == Exists(t, p)
    ensures Truthy(Apply(t, w), p) == Truthy(t, p)
  {
    var r := Apply(t, w);
    forall q | q in t && IsPrefix(p, q) ensures q in r {
      PrefixesComparable(p, w.path, q);
      PrefixTransitive(p, q, w.path);
    }
    assert IsPrefix(p, p);
  }

  /** After a value is written below the root, the root is an object, hence truthy. */
  lemma WrittenTreeIsTruthy(t: Tree, w: Write)
    requires w.value.Some? && |w.path| > 0
    ensures [] !in Apply(t, w) && Truthy(Apply(t, w), [])
  {
    assert IsPrefix([], w.path);
  }
}

=== FILE: wrappers.dfy ===
/** Option and Result, the failure-carrying values the rest of the model returns. */
module Wrappers {

  /** `None` stands for JavaScript's `null`/`undefined`. */
  datatype Option<+T> = None | Some(value: T)

  /** `Failure` stands for an exception thrown by the modelled code. */
  datatype Result<+T, +E> = Success(value: T) | Failure(error: E)
  {
    predicate IsFailure() {
      Failure?
    }

    function PropagateFailure<U>(): Result<U, E>
      requires Failure?
    {
      Failure(error)
    }

    function Extract(): T
      requires Success?
    {
      value
    }
  }
}
